=== FILE: README.md ===
# AESD character driver: a Dafny model of its storage core

The AESD character driver keeps the last N newline-terminated commands written to
`/dev/aesdchar` in a ring of N slots (`struct aesd_circular_buffer`), and presents
them to readers as one byte stream: the live commands, oldest first, end to end.
A write may deliver a command in several pieces. The pieces are staged in
`working_entry` until a newline completes the command. Readers move through the
stream with `read`, with `llseek` (SEEK_SET, SEEK_CUR, SEEK_END) and with the
`AESDCHAR_IOCSEEKTO` ioctl, which seeks to byte `k` of command `i`.

The model has five modules:

- `CommandLog` (command_log.dfy) is the abstract view.
  - A bounded queue of commands: `Push`, `PushAll`, `LastN`.
  - The stream: `Concat` and `TotalLength`.
  - A reference resolver `Locate`, which finds the command and offset of a stream position.
  - A reference read `ReadAt`, which copies at most `count` bytes from the one command holding a position.
- `AesdCircularBuffer` (aesd_circular_buffer.dfy) covers `aesd_circular_buffer_init`, `_add_entry` and `_find_entry_offset_for_fpos` over an immutable ring.
  - `Valid` characterises the states reachable from `Init`.
  - `Live` is the ring's logical contents.
  - The lemmas refine the ring to the queue, and the resolver loop to `Locate`. That loop keeps its `size_t` decrement, so `0 - 1` wraps to `SIZE_MAX`.
- `AesdChar` (aesd_char.dfy) covers `aesd_write`, `aesd_read`, `aesd_llseek`, `aesd_adjust_file_offset` and `aesd_ioctl`. Each is a pure function of a device state and a file position. `Write`, `Llseek`, `AdjustFileOffset` and `IoctlCorrected` return a `Step`: the new device, position and return value. `Read` returns a `ReadResult`: the new position, the return value and the bytes copied. The as-written `AdjustFileOffsetAsWritten` and `IoctlAsWritten` return an `AdjustOutcome`, which is either a `Step` or an access past the slot array. `Consistent` is the driver's invariant: every filled slot holds one complete command and the staged bytes hold no newline.
- `AesdClients` (aesd_clients.dfy) states what a program using the device observes over several calls.
  - Reading until 0 returns the whole stream.
  - Resubmitting the rest of a short write stores exactly the complete commands of the bytes written. This is stated against `Assemble`, an independent byte-by-byte definition of command assembly.
  - A seek to a command through the corrected ioctl places the next read at it, and a seek to a command's length places it at the next command or the end.
  - The ioctl as written is guaranteed to give the same positions before the first eviction (`IoctlAsWrittenAgreesBeforeEviction`). After an eviction it can give a different one (`PhysicalIndexMisplacesSeek`). `IoctlAsWritten` models the ioctl the code actually builds, and `IoctlCorrected` the one the findings below lead to.
- `AesdFindings` (aesd_findings.dfy) covers three defects of `aesd_adjust_file_offset`, listed under Findings.

The capacity `AESDCHAR_MAX_WRITE_OPERATIONS_SUPPORTED` is defined in a header that is
not part of this model. It is the constant `N = 10`. Bytes are `bv8`. Positions,
sizes and counts are unbounded naturals.

### Where the code and the driver's own comments differ

The model follows the code in two places where the comments in main.c promise more:

- A read returns bytes from one command only, even when `count` would reach into the next one. The comment at main.c:76-77 says the read continues until the amount sent is the amount requested. Reading the whole stream takes repeated reads. `ReadStaysInCommand` states the one-command limit, and `ReadToEnd` states that a reader which loops until read returns 0 gets everything.
- A write chunk may hold bytes after its first newline. The comment at main.c:183 assumes all `count` bytes are added. Only the bytes through the first newline are taken, and the rest are not discarded. `aesd_write` returns the shorter count, and a caller that resubmits the remainder, as stdio's output routines do, stores them as well. `WriteFully` proves that this loop loses no byte and makes one command per newline.

## Model

| member | source | states |
|---|---|---|
| AesdCircularBuffer.Init | aesd-char-driver/aesd-circular-buffer.c:132-134 | The zeroed ring has both indices 0, is not full and has every slot NULL with size 0. It is a reachable state with no live commands. |
| AesdCircularBuffer.AddEntry | aesd-char-driver/aesd-circular-buffer.c:95-127 | The new entry goes into the old `in_offs`, and no other slot changes. `in_offs` advances by one mod N. On a ring that is not full, nothing is returned and `out_offs` stays. On a full ring, the buffer at the old `out_offs` is returned and `out_offs` advances by one mod N. `full` afterwards holds exactly when it held before or `in_offs` has caught up with `out_offs`, so it is never cleared. |
| AesdCircularBuffer.AddEntryKeepsValid | aesd-char-driver/aesd-circular-buffer.c:108-124 | Adding a non-empty entry keeps the reachable-state invariant. While not full, `out_offs` is 0, slots below `in_offs` are filled and the rest are NULL. Once full, the indices are equal and every slot is filled. |
| AesdCircularBuffer.AddEntryRefines | aesd-char-driver/aesd-circular-buffer.c:108-126 | Adding refines a bounded queue: the live commands afterwards are the old ones followed by the new entry, less the oldest exactly when N were live. Something is returned exactly when N were live. It is the oldest live command, and its slot now holds the new entry. |
| AesdCircularBuffer.AddEntryRotates | aesd-char-driver/aesd-circular-buffer.c:108-117 | On a full ring the logical contents lose their first command and gain the new entry at the end. |
| AesdCircularBuffer.FindEntryOffsetForFpos | aesd-char-driver/aesd-circular-buffer.c:33-83 | The resolver, as written, gives the reference `Locate` over the live commands, read as a physical slot `(index + out_offs) % N`. It returns NULL exactly from the total length of the live commands on, and always on an empty ring. |
| AesdCircularBuffer.WalkMatchesLocate | aesd-char-driver/aesd-circular-buffer.c:46-80 | From any iteration on, the loop resolves as `Locate` over the slots it has still to visit, provided it has passed a non-empty slot or starts on one. In that case the wrapping `sum_offsets + size - 1` test never misfires. |
| AesdCircularBuffer.FindMatchesLocate | aesd-char-driver/aesd-circular-buffer.c:46-82 | On a non-empty ring the loop, started at `out_offs`, resolves exactly as `Locate` over the live commands. The NULL slots after them change nothing. |
| AesdCircularBuffer.FindDesignatesLive | aesd-char-driver/aesd-circular-buffer.c:71-77 | Below the end of the stream, the returned slot is `(p.index + out_offs) % N`. It holds live command `p.index`, and the returned offset is `p.offset`, for `p` the reference position. |
| AesdCircularBuffer.FindNullExactlyPastEnd | aesd-char-driver/aesd-circular-buffer.c:46-82 | The resolver returns NULL exactly when `char_offset` is at least the sum of the sizes of all N slots. |
| AesdCircularBuffer.FindOffsetIsRemainder | aesd-char-driver/aesd-circular-buffer.c:75-77 | A returned offset is `char_offset` less the sizes of the live commands logically before the returned one, and it is below the returned entry's size. |
| AesdCircularBuffer.FindResolvesByte | aesd-char-driver/aesd-circular-buffer.c:46-78 | A returned slot is filled and the returned offset lies inside it. Byte `char_offset` of the live commands laid end to end from `out_offs` is the byte at that offset. |
| AesdCircularBuffer.TotalSizeIsLiveLength | aesd-char-driver/main.c:288-290 | The sum of the sizes of all N slots, taken in physical order, is the length of the stream. |
| AesdChar.Fresh | aesd-char-driver/main.c:404-407 | The device after module init is consistent, holds no command, stages nothing and has its mutex free. |
| AesdChar.Memchr | aesd-char-driver/main.c:189-194 | `memchr` gives the index of the first newline of the chunk, or none exactly when the chunk has no newline. |
| AesdChar.StagedCommand | aesd-char-driver/main.c:189-191 | Staged bytes without a newline, followed by the chunk through its first newline, make exactly one complete command. |
| AesdChar.PushKeepsConsistent | aesd-char-driver/main.c:234-245 | Pushing a complete command and resetting the staged entry keeps the driver invariant. |
| AesdChar.Write | aesd-char-driver/main.c:148-255 | A locked device gives -ERESTARTSYS with nothing changed. Otherwise the write consumes the bytes through the first newline, or all of them if there is none, returns that count and advances the position by it. Without a newline the ring is untouched and the chunk is appended to the staged bytes. With one, the staged bytes plus the consumed prefix form the command that `add_entry` puts into the slot at `in_offs`, and `in_offs` advances. The live commands become the old queue with that command pushed, and staging is reset. The driver invariant is kept. |
| AesdChar.Read | aesd-char-driver/main.c:62-146 | A locked device gives -ERESTARTSYS. Otherwise the read returns the reference read of the live commands at the position: at most `count` bytes, all from the one command holding the position. It returns their number and advances the position by it. At or past the end it returns 0 and leaves the position unchanged. |
| AesdChar.ResolvedSlot | aesd-char-driver/main.c:104-143 | The bytes copied from the resolved entry, `min(count, size - offset)` of them from the offset, are the reference read. A resolved position lies below the slot-size sum, so the end-of-file test never zeroes a successful read. |
| AesdChar.Llseek | aesd-char-driver/main.c:257-304 | SEEK_SET, SEEK_CUR and SEEK_END give `off`, `f_pos + off` and stream length `+ off`. An unknown `whence` or a negative result gives -EINVAL with the position unchanged. Otherwise the position is set and returned. A held mutex gives -ERESTARTSYS for SEEK_CUR and SEEK_END. The device never changes. |
| AesdChar.LogicalPrefixSize | aesd-char-driver/main.c:336-341 | Summing the sizes of the slots before command `cmd` in logical order, from `out_offs`, gives the start of live command `cmd` in the stream. |
| AesdChar.AdjustFileOffset | aesd-char-driver/main.c:306-349 | This is the corrected seek-to-command. It returns 0 exactly when the device is free, `cmd` names a live command and `cmd_offset` is at most that command's length. In that case the position becomes the command's start in the stream plus `cmd_offset`. Otherwise the position is unchanged. An index of N or more gives -EINVAL. A held mutex with a smaller index gives -ERESTARTSYS. On a free device every failure is -EINVAL. The device, mutex included, is always left as it was. |
| AesdChar.AdjustFileOffsetAsWritten | aesd-char-driver/main.c:306-349 | As written, `cmd > N` gives -EINVAL and a held mutex gives -ERESTARTSYS. `cmd == N` reaches past the slot array. For `cmd < N`, the call succeeds exactly when physical slot `cmd` is filled and `cmd_offset` is at most its size. On success the position is the sum of physical slots `[0, cmd)` plus `cmd_offset`. Each -EINVAL after the lock leaves the mutex held. |
| AesdChar.IoctlAsWritten | aesd-char-driver/main.c:351-370 | The ioctl as the code builds it. AESDCHAR_IOCSEEKTO is exactly `aesd_adjust_file_offset` as written on its two fields. On a free device with an index below N, it succeeds exactly when physical slot `write_cmd` is filled and the offset is within it, and every failure leaves the mutex held. Any other request gives -ENOTTY with the position and device unchanged. |
| AesdChar.IoctlCorrected | aesd-char-driver/main.c:351-370 | The ioctl with the corrected seek-to-command on its two fields. It never changes the device. On a free device it succeeds exactly for a live command, counted from the oldest, and an offset within it. Any other request gives -ENOTTY with the position unchanged. |
| AesdClients.ReadFollowsStream | aesd-char-driver/main.c:104-143 | Below the end of the stream a read returns the stream's bytes at the file position, as many as it reports. |
| AesdClients.ReadStaysInCommand | aesd-char-driver/main.c:104-127 | A read never crosses a command boundary. It returns `min(count, length - offset)` bytes of the one live command holding the position, from its offset on, and advances the position by that much. |
| AesdClients.ReadToEnd | aesd-char-driver/main.c:62-146 | A reader that starts at 0 and reads with a positive count until read returns 0 receives exactly the whole stream, and stops at its length. |
| AesdClients.AssembleYieldsCommands | aesd-char-driver/main.c:189-245 | Assembly, from staged bytes without a newline, yields only complete commands and leaves a newline-free tail staged. |
| AesdClients.AssembleLosesNothing | aesd-char-driver/main.c:181-245 | Assembly loses and adds no byte: the commands and the staged tail, end to end, are the staged bytes followed by the input. |
| AesdClients.AssembleThroughNewline | aesd-char-driver/main.c:189-194 | A chunk whose first newline is at `p` completes the staged bytes with its bytes through `p`. Assembly starts afresh after that. |
| AesdClients.AssembleNoNewline | aesd-char-driver/main.c:198-232 | A chunk with no newline is staged whole. |
| AesdClients.WriteStep | aesd-char-driver/main.c:181-253 | One write of a non-empty chunk consumes at least one byte. It does not change the commands the ring will end up with, or the tail that will stay staged, once the rest of the chunk is also written. |
| AesdClients.WriteFully | aesd-char-driver/main.c:148-255 | A writer that resubmits whatever a short write left consumes the whole chunk. The counts the writes return add up to its length, and the position advances by it. The ring then holds exactly the old queue pushed with the complete commands of the staged bytes followed by the chunk. The bytes after the last newline stay staged. From an empty ring, the last N of those commands are kept. |
| AesdClients.EmptyKeepsLastCommands | aesd-char-driver/aesd-circular-buffer.c:108-126 | Pushing commands one by one onto an empty ring keeps the last N of them. |
| AesdClients.PartialWritesMakeOneCommand | aesd-char-driver/main.c:198-245 | Writing "ab" and then "cd\n" to a fresh device returns 2 and 3, leaves the position at 5 and stores the single command "abcd\n". |
| AesdClients.SeekLands | aesd-char-driver/main.c:336-348 | Through the corrected ioctl on a free device, seeking to a live command and an offset within it succeeds. It puts the position at that command's start in the stream plus the offset. |
| AesdClients.SeekThenRead | aesd-char-driver/main.c:351-370 | After a seek through the corrected ioctl to byte `off` of live command `cmd`, below its length, a read returns that command's bytes from `off` on, as many as `count` allows. |
| AesdClients.ReadAtCommand | aesd-char-driver/main.c:79-127 | A read at the start of live command `cmd` plus `off` returns that command's bytes from `off` on, as many as `count` allows. |
| AesdClients.SeekToCommandEnd | aesd-char-driver/main.c:327-348 | A seek through the corrected ioctl to the length of live command `cmd` succeeds. The next read returns the start of command `cmd + 1`, as many bytes as `count` allows, or 0 bytes if `cmd` is the newest. |
| AesdClients.ReadAtCommandEnd | aesd-char-driver/main.c:79-127 | A read at the end of live command `cmd` returns the start of command `cmd + 1`. If `cmd` is the newest, it returns 0 with the position unchanged. |
| AesdFindings.RangeCheckAdmitsCapacity | aesd-char-driver/main.c:311-315 | The range test lets `cmd == N` through to an access past the slot array. The corrected function returns -EINVAL. The ioctl as written takes the same path. |
| AesdFindings.MutexLeftHeld | aesd-char-driver/main.c:322-332 | An empty slot, or an offset past the end of a filled one, returns -EINVAL with the mutex still held. After that, read, write and a relative seek all fail with -ERESTARTSYS. The corrected function leaves the device as it was. Through the ioctl, the as-written path leaves the mutex held and the corrected one does not. |
| AesdFindings.SeekReleasesMutex | aesd-char-driver/main.c:317-348 | After any corrected seek request on a free device the mutex is free, and a read succeeds. |
| AesdFindings.EvictedIsReachable | aesd-char-driver/aesd-circular-buffer.c:108-126 | Eleven adds to the zeroed ring, "z\n", "bbb\n", eight times "a\n" and "x\n", leave exactly the full ring with both indices 1 that the findings use. |
| AesdFindings.WriteEvicts | aesd-char-driver/main.c:234-245 | Writing "x\n" to a device whose ring holds "z\n", "bbb\n" and eight times "a\n", with nothing staged, returns 2 and leaves exactly the evicted state the findings use, with "x\n" in slot 0. |
| AesdFindings.PhysicalIndexMisplacesSeek | aesd-char-driver/main.c:322-342 | After an eviction, as written, command 1 offset 0 puts the position at byte 2, inside the oldest command, where a read returns "b\n". The corrected function puts it at byte 4, the start of logical command 1 "a\n", which a read there returns. The ioctls as written and corrected give these same two positions. |
| AesdFindings.UnevictedPrefixSize | aesd-char-driver/main.c:338-341 | Before any eviction, the sizes of physical slots `[0, cmd)` add up to the start of live command `cmd`. |
| AesdFindings.AsWrittenAgreesBeforeEviction | aesd-char-driver/main.c:322-342 | While `out_offs` is 0, the as-written and corrected functions give the same return value and position for every `cmd < N` on a free device, and the same device on success. |
| AesdFindings.IoctlAsWrittenAgreesBeforeEviction | aesd-char-driver/main.c:351-370 | While `out_offs` is 0, the as-written and corrected ioctls agree on a free device for every request whose index is below N: same return value and position, and the same device on success. |
| AesdFindings.AsWrittenSeekLandsBeforeEviction | aesd-char-driver/main.c:336-348 | While `out_offs` is 0, the ioctl as written seeks to live command `cmd` at `off`, with `off` at most its length. It succeeds and puts the position at that command's start in the stream plus `off`. |

## Left out

- Kernel glue has no logic to verify and is not part of this model: `cdev` and `file_operations` set-up, module init and cleanup, open and release, device-number registration and PDEBUG logging. `Fresh` stands for the state module init leaves.
- `copy_to_user`, `copy_from_user`, `kzalloc`, `krealloc` and `kfree` are foreign calls. Their failure paths are left out: -EFAULT from read, write and ioctl. `aesd_write` also returns -EFAULT for every allocation failure; its initial -ENOMEM is never returned. On those paths the driver loses or leaks memory, which the model does not show. A failed `krealloc` (main.c:199-208) sets the staged `buffptr` to NULL but keeps its `size`, so the staged bytes are lost. `kbuff` leaks when `copy_from_user` fails (main.c:171-175). A freed buffer simply leaves the model.
- The ioctl's argument copy from user space is left out. `IoctlRequest` carries the decoded `struct aesd_seekto`.
- The mutex is a flag in the device. Each call is one sequential, atomic step. A held mutex makes `mutex_lock_interruptible` fail with -ERESTARTSYS, as it would on a signal, because no other holder exists to release it. Concurrency itself is not modelled.
- Integer widths are not modelled: `loff_t` and `ssize_t` overflow, and `size_t` overflow of sums. The one `size_t` wrap that matters, `sum_offsets + size - 1` with both 0, is modelled in `SizeDecrement`. The invariant `Valid` keeps every filled slot non-empty, so the wrap cannot misfire.
- The capacity N is fixed at 10. The proofs about the ring are not stated generically in N.

## Findings

| source | as written | input that shows it | evidently intended | confidence | as-written member | corrected member |
|---|---|---|---|---|---|---|
| aesd-char-driver/main.c:312 | `cmd > AESDCHAR_MAX_WRITE_OPERATIONS_SUPPORTED` rejects only indices above N, so `entry[cmd]` is read one past the array | `write_cmd = 10` (N) on a free device | reject `cmd >= N` with -EINVAL | high; not executed | AesdFindings.RangeCheckAdmitsCapacity | AesdChar.AdjustFileOffset |
| aesd-char-driver/main.c:322-332 | the two -EINVAL returns after `mutex_lock_interruptible` skip `mutex_unlock` | `write_cmd = 0, write_cmd_offset = 0` on a fresh device, whose slot 0 is NULL | unlock before every return after the lock | high; not executed | AesdFindings.MutexLeftHeld | AesdFindings.SeekReleasesMutex |
| aesd-char-driver/main.c:323 | slot `cmd` is taken by its physical index, and the start is summed over physical slots `[0, cmd)`, though the stream starts at `out_offs` | full ring, `in_offs = out_offs = 1`, slot 0 "x\n", slot 1 "bbb\n", others "a\n"; `write_cmd = 1, write_cmd_offset = 0` gives `f_pos` 2 | `f_pos` 4, the start of the second-oldest command | medium; not executed | AesdFindings.PhysicalIndexMisplacesSeek | AesdChar.AdjustFileOffset |

=== FILE: aesd_char.dfy ===
/**
 * The file operations of the AESD character driver over its ring: write
 * assembly of newline-terminated commands, chunked read, llseek and the
 * seek-to-command ioctl. Each call is one sequential, pure function of a
 * device state and a file position. `Write`, `Llseek`, `AdjustFileOffset`
 * and `IoctlCorrected` give a `Step`: the new device, the new position and
 * the value the C function returns (a count, a position or a negated errno).
 * `Read` gives a `ReadResult`: the new position, the return value and the
 * bytes copied. The as-written seek and ioctl give an `AdjustOutcome`,
 * which is either a `Step` or an access past the slot array.
 */
module AesdChar {
  import opened CommandLog
  import opened AesdCircularBuffer

  const EINVAL: int := 22
  const ENOTTY: int := 25
  const ERESTARTSYS: int := 512

  const SEEK_SET: int := 0
  const SEEK_CUR: int := 1
  const SEEK_END: int := 2

  /** struct aesd_dev without its cdev: the ring, the staged partial command
      (`working_entry`) and whether `dev_mutex` is held. */
  datatype AesdDev = AesdDev(buffer: CircularBuffer, workingEntry: BufferEntry, locked: bool)

  /** The outcome of one call: the device afterwards, the file position
      afterwards and the return value. */
  datatype Step = Step(dev: AesdDev, fpos: nat, ret: int)

  /** The outcome of a read, which leaves the device alone: the file position
      afterwards, the return value and the bytes copied to the caller. */
  datatype ReadResult = ReadResult(fpos: nat, ret: int, data: seq<byte>)

  /** An ioctl request. Decoding the request number and copying its argument
      from user space are outside the model. */
  datatype IoctlRequest =
    | SeekTo(writeCmd: nat, writeCmdOffset: nat)   // AESDCHAR_IOCSEEKTO with its struct aesd_seekto
    | OtherRequest(code: nat)                     // any other request number

  /** One complete command: bytes ending in the only newline they contain. */
  predicate IsCommand(s: seq<byte>)
  {
    |s| > 0 && s[|s| - 1] == NEWLINE && NEWLINE !in s[..|s| - 1]
  }

  /**
   * The driver's invariant: a reachable ring whose every filled slot holds
   * one complete command, and staged bytes that contain no newline yet.
   */
  predicate Consistent(d: AesdDev)
  {
    && Valid(d.buffer)
    && NEWLINE !in d.workingEntry.Contents()
    && forall i | 0 <= i < N :: d.buffer.entry[i].Buf? ==> IsCommand(d.buffer.entry[i].data)
  }

  /** The bytes a reader sees: the live commands, oldest first, end to end. */
  function Stream(d: AesdDev): seq<byte>
    requires WellFormed(d.buffer)
  {
    Concat(Live(d.buffer))
  }

  /** The device as aesd_init_module leaves it: zeroed, mutex free. */
  function Fresh(): (d: AesdDev)
    ensures Consistent(d) && Live(d.buffer) == [] && Stream(d) == []
    ensures d.workingEntry == Null && !d.locked
  {
    AesdDev(Init(), Null, false)
  }

  /** memchr: the index of the first `c` in `buf`, if any. */
  function Memchr(buf: seq<byte>, c: byte): (r: Option<nat>)
    ensures r.None? <==> c !in buf
    ensures r.Some? ==> r.value < |buf| && buf[r.value] == c && c !in buf[..r.value]
  {
    if |buf| == 0 then None
    else if buf[0] == c then Some(0)
    else
      match Memchr(buf[1..], c)
      case None => None
      case Some(i) =>
        assert buf[..i + 1] == [buf[0]] + buf[1..][..i];
        Some(i + 1)
  }

  /** Staged bytes without a newline followed by a chunk up to its first
      newline make one complete command. */
  lemma StagedCommand(staged: seq<byte>, buf: seq<byte>, p: nat)
    requires NEWLINE !in staged
    requires p < |buf| && buf[p] == NEWLINE && NEWLINE !in buf[..p]
    ensures IsCommand(staged + buf[..p + 1])
  {
    var s := staged + buf[..p + 1];
    assert s[..|s| - 1] == staged + buf[..p];
  }

  /** Pushing a complete command keeps the device consistent. */
  lemma PushKeepsConsistent(d: AesdDev, e: BufferEntry)
    requires Consistent(d) && e.Buf? && IsCommand(e.data)
    ensures Consistent(AesdDev(AddEntry(d.buffer, e).buffer, Null, false))
  {
    AddEntryRefines(d.buffer, e);
  }

  /**
   * aesd_write. Only the bytes up to and including the first newline of the
   * chunk are consumed (all of them when there is none); they extend the
   * staged command. On a newline the staged command enters the ring, the
   * buffer the ring replaces is freed and staging starts over. The file
   * position advances by the count consumed, which is returned.
   */
  function Write(d: AesdDev, fpos: nat, buf: seq<byte>): (r: Step)
    requires Consistent(d)
    ensures Consistent(r.dev)
    ensures d.locked ==> r == Step(d, fpos, -ERESTARTSYS)
    ensures !d.locked ==> !r.dev.locked && 0 <= r.ret <= |buf| && r.fpos == fpos + r.ret
    ensures !d.locked && NEWLINE !in buf ==>
              && r.ret == |buf|
              && r.dev.buffer == d.buffer
              && r.dev.workingEntry.Contents() == d.workingEntry.Contents() + buf
    ensures !d.locked && NEWLINE in buf ==>
              && 0 < r.ret && buf[r.ret - 1] == NEWLINE && NEWLINE !in buf[..r.ret - 1]
              && r.dev.workingEntry == Null
              && Live(r.dev.buffer) == Push(Live(d.buffer), d.workingEntry.Contents() + buf[..r.ret], N)
              && r.dev.buffer == AddEntry(d.buffer, Buf(d.workingEntry.Contents() + buf[..r.ret])).buffer
  {
    if d.locked then Step(d, fpos, -ERESTARTSYS)
    else
      var newline := Memchr(buf, NEWLINE);
      var bytesToAdd := if newline.Some? then newline.value + 1 else |buf|;
      var working := Buf(d.workingEntry.Contents() + buf[..bytesToAdd]);
      if newline.Some? then
        StagedCommand(d.workingEntry.Contents(), buf, newline.value);
        PushKeepsConsistent(d, working);
        AddEntryRefines(d.buffer, working);
        // the replaced buffer, if any, is freed: it leaves the model here
        var added := AddEntry(d.buffer, working);
        Step(AesdDev(added.buffer, Null, false), fpos + bytesToAdd, bytesToAdd)
      else
        assert buf[..bytesToAdd] == buf;
        Step(d.(workingEntry := working), fpos + bytesToAdd, bytesToAdd)
  }

  /**
   * aesd_read. The file position is resolved to a command; at most `count`
   * bytes are copied from that command alone, starting at the resolved
   * offset, and the position advances by the count returned. A position that
   * does not resolve (empty ring or end of stream) returns 0.
   */
  function Read(d: AesdDev, fpos: nat, count: nat): (r: ReadResult)
    requires Valid(d.buffer)
    ensures d.locked ==> r == ReadResult(fpos, -ERESTARTSYS, [])
    ensures !d.locked ==>
              && r.data == ReadAt(Live(d.buffer), fpos, count)
              && r.ret == |r.data|
              && r.fpos == fpos + r.ret
    ensures !d.locked && fpos >= TotalLength(Live(d.buffer)) ==> r == ReadResult(fpos, 0, [])
  {
    if d.locked then ReadResult(fpos, -ERESTARTSYS, [])
    else
      match FindEntryOffsetForFpos(d.buffer, fpos)
      case None => ReadResult(fpos, 0, [])
      case Some(found) =>
        ResolvedSlot(d.buffer, fpos, count, found);
        var entry := d.buffer.entry[found.slot];
        var countBytesToSend: nat := Min(count, entry.Size() - found.offset);
        var sent := entry.Contents()[found.offset..found.offset + countBytesToSend];
        var sum := SumSizes(d.buffer.entry);
        // the end-of-file test after the copy; a resolved position is below the total
        var retval := if fpos > sum then 0 else countBytesToSend;
        ReadResult(fpos + retval, retval, sent)
  }

  /** The bytes a read copies from the resolved slot are the reference read's,
      and a resolved position lies below the sum of all slot sizes. */
  lemma ResolvedSlot(b: CircularBuffer, fpos: nat, count: nat, found: EntryOffset)
    requires Valid(b) && FindEntryOffsetForFpos(b, fpos) == Some(found)
    ensures fpos < SumSizes(b.entry)
    ensures found.slot < N
    ensures var entry := b.entry[found.slot];
            && found.offset <= entry.Size() == |entry.Contents()|
            && entry.Contents()[found.offset..found.offset + Min(count, entry.Size() - found.offset)]
               == ReadAt(Live(b), fpos, count)
  {
    TotalSizeIsLiveLength(b);
    FindDesignatesLive(b, fpos);
    ReadAtLocated(Live(b), fpos, count, Locate(Live(b), fpos).value);
  }

  /**
   * aesd_llseek. SEEK_SET, SEEK_CUR and SEEK_END take the offset from 0, from
   * the current position and from the total size of the slots; an unknown
   * `whence` or a negative result is -EINVAL with the position unchanged.
   * Otherwise the new position is set and returned.
   */
  function Llseek(d: AesdDev, fpos: nat, off: int, whence: int): (r: Step)
    requires Valid(d.buffer)
    ensures r.dev == d
    ensures r.ret < 0 ==> r.fpos == fpos
    ensures r.ret >= 0 ==> r.fpos == r.ret
    ensures whence !in {SEEK_SET, SEEK_CUR, SEEK_END} ==> r.ret == -EINVAL
    ensures whence == SEEK_SET ==> r.ret == if off < 0 then -EINVAL else off
    ensures (whence == SEEK_CUR || whence == SEEK_END) && d.locked ==> r.ret == -ERESTARTSYS
    ensures whence == SEEK_CUR && !d.locked ==> r.ret == if fpos + off < 0 then -EINVAL else fpos + off
    ensures whence == SEEK_END && !d.locked ==>
              r.ret == if TotalLength(Live(d.buffer)) + off < 0 then -EINVAL else TotalLength(Live(d.buffer)) + off
  {
    var newpos :=
      if whence == SEEK_SET then off
      else if whence == SEEK_CUR then fpos + off
      else SumSizes(d.buffer.entry) + off;
    TotalSizeIsLiveLength(d.buffer);
    if whence !in {SEEK_SET, SEEK_CUR, SEEK_END} then Step(d, fpos, -EINVAL)
    else if whence != SEEK_SET && d.locked then Step(d, fpos, -ERESTARTSYS)
    else if newpos < 0 then Step(d, fpos, -EINVAL)
    else Step(d, newpos, newpos)
  }

  /** Total size of the first `cmd` live commands, summed slot by slot from
      the oldest. */
  function LogicalPrefixSize(b: CircularBuffer, cmd: nat): (n: nat)
    requires Valid(b) && cmd <= Count(b)
    ensures n == TotalLength(Live(b)[..cmd])
  {
    if cmd == 0 then
      assert Live(b)[..0] == [];
      0
    else
      TotalLengthSnoc(Live(b), cmd - 1);
      LiveAt(b, cmd - 1);
      LogicalPrefixSize(b, cmd - 1) + b.entry[(cmd - 1 + b.outOffs) % N].Size()
  }

  /**
   * aesd_adjust_file_offset with command `cmd` counted from the oldest live
   * command, an index below the capacity, and the mutex released on every
   * return. The position becomes the start of that command plus
   * `cmdOffset`, which may equal the command's length.
   */
  function AdjustFileOffset(d: AesdDev, fpos: nat, cmd: nat, cmdOffset: nat): (r: Step)
    requires Valid(d.buffer)
    ensures r.dev == d
    ensures r.ret == 0 <==> !d.locked && cmd < |Live(d.buffer)| && cmdOffset <= |Live(d.buffer)[cmd]|
    ensures r.ret != 0 ==> r.fpos == fpos && (r.ret == -EINVAL || r.ret == -ERESTARTSYS)
    ensures cmd >= N ==> r.ret == -EINVAL
    ensures d.locked && cmd < N ==> r.ret == -ERESTARTSYS
    ensures !d.locked && r.ret != 0 ==> r.ret == -EINVAL
    ensures r.ret == 0 ==> r.fpos == TotalLength(Live(d.buffer)[..cmd]) + cmdOffset
  {
    if cmd >= N then Step(d, fpos, -EINVAL)
    else if d.locked then Step(d, fpos, -ERESTARTSYS)
    else if cmd >= Count(d.buffer) then Step(d, fpos, -EINVAL)
    else
      var entry := d.buffer.entry[(cmd + d.buffer.outOffs) % N];
      LiveAt(d.buffer, cmd);
      if cmdOffset > entry.Size() then Step(d, fpos, -EINVAL)
      else Step(d, LogicalPrefixSize(d.buffer, cmd) + cmdOffset, 0)
  }

  /** What aesd_adjust_file_offset as written can do: return, or read past
      the end of the slot array. */
  datatype AdjustOutcome = Returned(step: Step) | OutOfBoundsAccess

  /**
   * aesd_adjust_file_offset as written: the range test admits `cmd == N`,
   * the slot is chosen by its physical index, the start offset sums the
   * physical slots below it, and the two error returns after the lock leave
   * the mutex held.
   */
  function AdjustFileOffsetAsWritten(d: AesdDev, fpos: nat, cmd: nat, cmdOffset: nat): (r: AdjustOutcome)
    requires Valid(d.buffer)
    ensures cmd > N ==> r == Returned(Step(d, fpos, -EINVAL))
    ensures cmd <= N && d.locked ==> r == Returned(Step(d, fpos, -ERESTARTSYS))
    ensures cmd == N && !d.locked ==> r.OutOfBoundsAccess?
    ensures cmd < N && !d.locked ==>
              && r.Returned?
              && r.step.dev.buffer == d.buffer && r.step.dev.workingEntry == d.workingEntry
              && (r.step.ret == 0 <==> d.buffer.entry[cmd].Buf? && cmdOffset <= d.buffer.entry[cmd].Size())
              && (r.step.ret != 0 ==> r.step.ret == -EINVAL && r.step.fpos == fpos && r.step.dev.locked)
              && (r.step.ret == 0 ==> !r.step.dev.locked && r.step.fpos == SumSizes(d.buffer.entry[..cmd]) + cmdOffset)
  {
    if cmd > N then Returned(Step(d, fpos, -EINVAL))
    else if d.locked then Returned(Step(d, fpos, -ERESTARTSYS))
    else if cmd == N then OutOfBoundsAccess
    else
      var held := d.(locked := true);
      if d.buffer.entry[cmd].Null? then Returned(Step(held, fpos, -EINVAL))
      else if cmdOffset > d.buffer.entry[cmd].Size() then Returned(Step(held, fpos, -EINVAL))
      else Returned(Step(d, SumSizes(d.buffer.entry[..cmd]) + cmdOffset, 0))
  }

  /**
   * aesd_ioctl with the corrected seek: AESDCHAR_IOCSEEKTO seeks to a
   * command counted from the oldest live one; any other request is -ENOTTY.
   */
  function IoctlCorrected(d: AesdDev, fpos: nat, req: IoctlRequest): (r: Step)
    requires Valid(d.buffer)
    ensures r.dev == d
    ensures req.OtherRequest? ==> r.ret == -ENOTTY && r.fpos == fpos
    ensures req.SeekTo? ==> r == AdjustFileOffset(d, fpos, req.writeCmd, req.writeCmdOffset)
    ensures req.SeekTo? && !d.locked ==>
              (r.ret == 0 <==> req.writeCmd < |Live(d.buffer)| && req.writeCmdOffset <= |Live(d.buffer)[req.writeCmd]|)
  {
    match req
    case SeekTo(cmd, cmdOffset) => AdjustFileOffset(d, fpos, cmd, cmdOffset)
    case OtherRequest(_) => Step(d, fpos, -ENOTTY)
  }

  /**
   * aesd_ioctl as written: AESDCHAR_IOCSEEKTO goes to aesd_adjust_file_offset
   * as written, so the command is a physical slot index, `cmd == N` reads
   * past the slot array and a rejected slot or offset leaves the mutex held;
   * any other request is -ENOTTY.
   */
  function IoctlAsWritten(d: AesdDev, fpos: nat, req: IoctlRequest): (r: AdjustOutcome)
    requires Valid(d.buffer)
    ensures req.OtherRequest? ==> r == Returned(Step(d, fpos, -ENOTTY))
    ensures req.SeekTo? ==> r == AdjustFileOffsetAsWritten(d, fpos, req.writeCmd, req.writeCmdOffset)
    ensures req.SeekTo? && req.writeCmd < N && !d.locked ==>
              && r.Returned?
              && (r.step.ret == 0 <==> d.buffer.entry[req.writeCmd].Buf? && req.writeCmdOffset <= d.buffer.entry[req.writeCmd].Size())
              && (r.step.ret != 0 ==> r.step.dev.locked)
  {
    match req
    case SeekTo(cmd, cmdOffset) => AdjustFileOffsetAsWritten(d, fpos, cmd, cmdOffset)
    case OtherRequest(_) => Returned(Step(d, fpos, -ENOTTY))
  }
}

=== FILE: aesd_circular_buffer.dfy ===
/**
 * The driver's ring of commands: N slots, an insertion index `inOffs`, an
 * index `outOffs` of the oldest command and a `full` flag that tells a full
 * ring from an empty one when the two indices meet.
 */
module AesdCircularBuffer {
  import opened CommandLog

  /** AESDCHAR_MAX_WRITE_OPERATIONS_SUPPORTED, the number of slots. The header
      that defines it is not part of this model; 10 is the value the driver
      is built with. */
  const N: nat := 10

  /** SIZE_MAX, what `0 - 1` wraps to in `size_t` arithmetic. */
  const SIZE_MAX: nat := 0xFFFF_FFFF_FFFF_FFFF

  /** A slot: a NULL `buffptr` with size 0, or a buffer holding `data`. */
  datatype BufferEntry = Null | Buf(data: seq<byte>)
  {
    function Size(): nat
    {
      if Null? then 0 else |data|
    }

    function Contents(): seq<byte>
    {
      if Null? then [] else data
    }
  }

  datatype CircularBuffer = CircularBuffer(entry: seq<BufferEntry>, inOffs: nat, outOffs: nat, full: bool)

  /** What an entry pointer returned by the resolver designates: slot `slot`,
      and the byte `offset` of the position inside that slot. */
  datatype EntryOffset = EntryOffset(slot: nat, offset: nat)

  /** The result of an add: the new ring and the `buffptr` of the slot it
      overwrote (Null when nothing was replaced). */
  datatype AddResult = AddResult(buffer: CircularBuffer, replaced: BufferEntry)

  predicate WellFormed(b: CircularBuffer)
  {
    |b.entry| == N && b.inOffs < N && b.outOffs < N
  }

  /**
   * The states reachable from Init by AddEntry of non-empty buffers. Until
   * the ring first fills, `outOffs` stays 0, slots [0, inOffs) hold commands
   * and the rest are NULL; once full, the flag stays set, the indices stay
   * equal and every slot holds a command.
   */
  predicate Valid(b: CircularBuffer)
  {
    && WellFormed(b)
    && (if b.full then b.inOffs == b.outOffs else b.outOffs == 0)
    && forall i | 0 <= i < N ::
         if b.full || i < b.inOffs then b.entry[i].Buf? && |b.entry[i].data| > 0
         else b.entry[i].Null?
  }

  /** Number of live commands. */
  function Count(b: CircularBuffer): (n: nat)
    requires WellFormed(b)
    ensures n <= N
  {
    if b.full then N
    else if b.outOffs <= b.inOffs then b.inOffs - b.outOffs
    else b.inOffs + N - b.outOffs
  }

  /** The contents of a sequence of slots in physical order. */
  function SlotContents(es: seq<BufferEntry>): (cs: seq<seq<byte>>)
    ensures |cs| == |es|
  {
    seq(|es|, i requires 0 <= i < |es| => es[i].Contents())
  }

  /** All N slots in the order the resolver visits them: from `outOffs` to
      the end of the array, then from its start. */
  function Rotation(b: CircularBuffer): (cs: seq<seq<byte>>)
    requires WellFormed(b)
    ensures |cs| == N
  {
    SlotContents(b.entry)[b.outOffs..] + SlotContents(b.entry)[..b.outOffs]
  }

  /** The live commands, oldest first: the logical contents of the ring. */
  function Live(b: CircularBuffer): (cs: seq<seq<byte>>)
    requires WellFormed(b)
    ensures |cs| == Count(b)
  {
    LiveUpTo(b, Count(b))
  }

  /** The contents of the `k` slots from `outOffs` on, in that order. */
  function LiveUpTo(b: CircularBuffer, k: nat): (cs: seq<seq<byte>>)
    requires WellFormed(b) && k <= N
    ensures |cs| == k
  {
    if k == 0 then [] else LiveUpTo(b, k - 1) + [b.entry[(k - 1 + b.outOffs) % N].Contents()]
  }

  /** Slot by slot from `outOffs` is a prefix of the rotation. */
  lemma {:induction false} LiveUpToIsRotation(b: CircularBuffer, k: nat)
    requires WellFormed(b) && k <= N
    ensures LiveUpTo(b, k) == Rotation(b)[..k]
    decreases k
  {
    if k > 0 {
      LiveUpToIsRotation(b, k - 1);
      RotationAt(b, k - 1);
      TakeSnoc(Rotation(b), k - 1);
    }
  }

  /** The live commands are the first Count(b) slots of the rotation. */
  lemma LiveIsRotationPrefix(b: CircularBuffer)
    requires WellFormed(b)
    ensures Live(b) == Rotation(b)[..Count(b)]
  {
    LiveUpToIsRotation(b, Count(b));
  }

  /** Position `k` of the rotation is slot `(k + outOffs) % N`. */
  lemma RotationAt(b: CircularBuffer, k: nat)
    requires WellFormed(b) && k < N
    ensures Rotation(b)[k] == b.entry[(k + b.outOffs) % N].Contents()
  {
    ModN(b.outOffs + k);
  }

  /** Sum of the `size` fields of a run of slots, in physical order. */
  function SumSizes(es: seq<BufferEntry>): nat
  {
    if |es| == 0 then 0 else es[0].Size() + SumSizes(es[1..])
  }

  lemma ModN(x: int)
    requires 0 <= x < 2 * N
    ensures x % N == if x < N then x else x - N
  {
  }

  /** aesd_circular_buffer_init: every field zero. */
  function Init(): (b: CircularBuffer)
    ensures Valid(b) && Live(b) == []
    ensures b.inOffs == 0 && b.outOffs == 0 && !b.full
    ensures forall i | 0 <= i < N :: b.entry[i] == Null && b.entry[i].Size() == 0
  {
    CircularBuffer(seq(N, _ => Null), 0, 0, false)
  }

  /**
   * aesd_circular_buffer_add_entry. On a full ring the oldest slot is handed
   * back and `outOffs` moves past it; the new entry always goes to `inOffs`,
   * which then advances, and the ring becomes full when `inOffs` catches up
   * with `outOffs`.
   */
  function AddEntry(b: CircularBuffer, e: BufferEntry): (r: AddResult)
    requires WellFormed(b)
    ensures WellFormed(r.buffer)
    ensures r.buffer.entry[b.inOffs] == e
    ensures forall i | 0 <= i < N && i != b.inOffs :: r.buffer.entry[i] == b.entry[i]
    ensures r.buffer.inOffs == (b.inOffs + 1) % N
    ensures !b.full ==> r.replaced == Null && r.buffer.outOffs == b.outOffs
    ensures b.full ==> r.replaced == b.entry[b.outOffs] && r.buffer.outOffs == (b.outOffs + 1) % N
    ensures r.buffer.full <==> b.full || r.buffer.inOffs == r.buffer.outOffs
  {
    var replaced := if b.full then b.entry[b.outOffs] else Null;
    var outOffs := if b.full then (b.outOffs + 1) % N else b.outOffs;
    var entry := b.entry[b.inOffs := e];
    var inOffs := (b.inOffs + 1) % N;
    var full := b.full || inOffs == outOffs;
    AddResult(CircularBuffer(entry, inOffs, outOffs, full), replaced)
  }

  /** `x - 1` in `size_t`: 0 wraps round to SIZE_MAX. */
  function SizeDecrement(x: nat): nat
  {
    if x == 0 then SIZE_MAX else x - 1
  }

  /**
   * The loop of aesd_circular_buffer_find_entry_offset_for_fpos from
   * iteration `index` on, with `sumOffsets` bytes already passed. It visits
   * every slot, live or not, and keeps the `size_t` test as written.
   */
  function Walk(b: CircularBuffer, charOffset: nat, index: nat, sumOffsets: nat): Option<EntryOffset>
    requires WellFormed(b) && index <= N && sumOffsets <= charOffset
    decreases N - index
  {
    if index == N then None
    else
      var bufferIndex := (index + b.outOffs) % N;
      var size := b.entry[bufferIndex].Size();
      if SizeDecrement(sumOffsets + size) >= charOffset then
        Some(EntryOffset(bufferIndex, charOffset - sumOffsets))
      else
        Walk(b, charOffset, index + 1, sumOffsets + size)
  }

  /** A position in the list of logical slots starting at `base`, as a physical slot. */
  function ToSlot(b: CircularBuffer, p: Option<Position>, base: nat): Option<EntryOffset>
    requires WellFormed(b)
  {
    match p
    case None => None
    case Some(q) => Some(EntryOffset((base + q.index + b.outOffs) % N, q.offset))
  }

  /** `rot` lists, in loop order, sequences exactly as long as the slots the loop visits. */
  predicate SizesMatch(b: CircularBuffer, rot: seq<seq<byte>>)
  {
    WellFormed(b) && |rot| == N && forall k :: 0 <= k < N ==> |rot[k]| == b.entry[(k + b.outOffs) % N].Size()
  }

  /**
   * Once the loop has passed a non-empty slot, or starts on one, the size_t
   * test never wraps and the loop resolves exactly as Locate does over the
   * slots still to visit.
   */
  lemma {:induction false} WalkMatchesLocate(b: CircularBuffer, rot: seq<seq<byte>>, charOffset: nat, index: nat, sumOffsets: nat)
    requires SizesMatch(b, rot) && index <= N && sumOffsets <= charOffset
    requires sumOffsets > 0 || index == N || |rot[index]| > 0
    ensures Walk(b, charOffset, index, sumOffsets) == ToSlot(b, Locate(rot[index..], charOffset - sumOffsets), index)
    decreases N - index
  {
    if index == N {
      assert rot[N..] == [];
    } else {
      DropOne(rot, index);
      if charOffset - sumOffsets >= |rot[index]| {
        WalkMatchesLocate(b, rot, charOffset, index + 1, sumOffsets + |rot[index]|);
        LocateStep(b, rot[index..], charOffset - sumOffsets, index);
      }
    }
  }

  /** The whole loop, started on a non-empty slot, resolves as Locate over `rot`. */
  lemma WalkFromStart(b: CircularBuffer, rot: seq<seq<byte>>, charOffset: nat)
    requires SizesMatch(b, rot) && |rot[0]| > 0
    ensures Walk(b, charOffset, 0, 0) == ToSlot(b, Locate(rot, charOffset), 0)
  {
    WalkMatchesLocate(b, rot, charOffset, 0, 0);
    DropZero(rot);
  }

  /** The rotation has the slot sizes the loop reads. */
  lemma RotationSizes(b: CircularBuffer)
    requires WellFormed(b)
    ensures SizesMatch(b, Rotation(b))
  {
    forall k | 0 <= k < N
      ensures |Rotation(b)[k]| == b.entry[(k + b.outOffs) % N].Size()
    {
      RotationAt(b, k);
    }
  }

  /** One step of Locate past the first slot, seen from the physical ring. */
  lemma LocateStep(b: CircularBuffer, rest: seq<seq<byte>>, c: nat, index: nat)
    requires WellFormed(b) && |rest| > 0 && c >= |rest[0]|
    ensures ToSlot(b, Locate(rest, c), index) == ToSlot(b, Locate(rest[1..], c - |rest[0]|), index + 1)
  {
    var p := Locate(rest[1..], c - |rest[0]|);
    if p.Some? {
      assert index + (p.value.index + 1) + b.outOffs == index + 1 + p.value.index + b.outOffs;
    }
  }

  /** Before the ring first fills the rotation is the physical order. */
  lemma RotationOfUnfilled(b: CircularBuffer)
    requires WellFormed(b) && b.outOffs == 0
    ensures Rotation(b) == SlotContents(b.entry)
  {
    DropZero(SlotContents(b.entry));
  }

  /** The rotation past the live commands holds only empty slots. */
  lemma RotationPadsLive(b: CircularBuffer)
    requires Valid(b)
    ensures Rotation(b) == Live(b) + Rotation(b)[Count(b)..]
    ensures forall i | 0 <= i < |Rotation(b)[Count(b)..]| :: Rotation(b)[Count(b)..][i] == []
  {
    LiveIsRotationPrefix(b);
    if !b.full {
      RotationOfUnfilled(b);
      forall i | 0 <= i < |Rotation(b)[Count(b)..]|
        ensures Rotation(b)[Count(b)..][i] == []
      {
        assert b.entry[b.inOffs + i].Null?;
      }
    }
  }

  /** A non-empty ring holds a command at `outOffs`. */
  lemma FirstSlotFilled(b: CircularBuffer)
    requires Valid(b) && (b.full || b.inOffs != b.outOffs)
    ensures |Rotation(b)[0]| > 0
  {
    RotationAt(b, 0);
    assert b.outOffs % N == b.outOffs;
    assert b.entry[b.outOffs].Buf?;
  }

  /** On a non-empty ring the loop resolves as Locate over the whole rotation. */
  lemma FindMatchesRotation(b: CircularBuffer, charOffset: nat)
    requires Valid(b) && (b.full || b.inOffs != b.outOffs)
    ensures Walk(b, charOffset, 0, 0) == ToSlot(b, Locate(Rotation(b), charOffset), 0)
  {
    FirstSlotFilled(b);
    RotationSizes(b);
    WalkFromStart(b, Rotation(b), charOffset);
  }

  /** ... and so as Locate over the live commands, the rest being empty. */
  lemma FindMatchesLocate(b: CircularBuffer, charOffset: nat)
    requires Valid(b) && (b.full || b.inOffs != b.outOffs)
    ensures Walk(b, charOffset, 0, 0) == ToSlot(b, Locate(Live(b), charOffset), 0)
  {
    FindMatchesRotation(b, charOffset);
    RotationPadsLive(b);
    LocatePadding(Live(b), Rotation(b)[Count(b)..], charOffset);
  }

  /** Live command `k` is the contents of slot `(outOffs + k) % N`. */
  lemma LiveAt(b: CircularBuffer, k: nat)
    requires WellFormed(b) && k < Count(b)
    ensures Live(b)[k] == b.entry[(k + b.outOffs) % N].Contents()
  {
    LiveIsRotationPrefix(b);
    RotationAt(b, k);
  }

  /**
   * aesd_circular_buffer_find_entry_offset_for_fpos: the slot holding byte
   * `charOffset` of the live commands laid end to end, oldest first, and the
   * offset of that byte in the slot; None on an empty ring or past the end.
   */
  function FindEntryOffsetForFpos(b: CircularBuffer, charOffset: nat): (r: Option<EntryOffset>)
    requires Valid(b)
    ensures r == ToSlot(b, Locate(Live(b), charOffset), 0)
    ensures r.None? <==> charOffset >= TotalLength(Live(b))
    ensures !b.full && b.inOffs == b.outOffs ==> r.None?
  {
    LocateFinds(Live(b), charOffset);
    if !b.full && b.inOffs == b.outOffs then
      assert Live(b) == [];
      None
    else
      FindMatchesLocate(b, charOffset);
      Walk(b, charOffset, 0, 0)
  }

  /** A resolved slot holds the live command Locate names, at the same offset. */
  lemma FindDesignatesLive(b: CircularBuffer, charOffset: nat)
    requires Valid(b) && charOffset < TotalLength(Live(b))
    ensures Locate(Live(b), charOffset).Some?
    ensures var p := Locate(Live(b), charOffset).value;
            var found := FindEntryOffsetForFpos(b, charOffset).value;
            && found.offset == p.offset
            && found.slot == (p.index + b.outOffs) % N
            && b.entry[found.slot].Contents() == Live(b)[p.index]
  {
    LocateFinds(Live(b), charOffset);
    SlotOfLive(b, Locate(Live(b), charOffset).value);
  }

  /** Live position `p`, as a physical slot, holds live command `p.index`. */
  lemma SlotOfLive(b: CircularBuffer, p: Position)
    requires Valid(b) && p.index < Count(b)
    ensures var found := ToSlot(b, Some(p), 0).value;
            && found.offset == p.offset
            && found.slot == (p.index + b.outOffs) % N
            && b.entry[found.slot].Contents() == Live(b)[p.index]
  {
    assert 0 + p.index + b.outOffs == p.index + b.outOffs;
    LiveAt(b, p.index);
  }

  /** The resolver returns NULL exactly from the sum of all slot sizes on. */
  lemma FindNullExactlyPastEnd(b: CircularBuffer, charOffset: nat)
    requires Valid(b)
    ensures FindEntryOffsetForFpos(b, charOffset).None? <==> charOffset >= SumSizes(b.entry)
  {
    TotalSizeIsLiveLength(b);
  }

  /**
   * The returned offset is `charOffset` less the sizes of the live commands
   * before the returned one, and lies inside the returned slot.
   */
  lemma FindOffsetIsRemainder(b: CircularBuffer, charOffset: nat)
    requires Valid(b) && FindEntryOffsetForFpos(b, charOffset).Some?
    ensures Locate(Live(b), charOffset).Some?
    ensures var p := Locate(Live(b), charOffset).value;
            var found := FindEntryOffsetForFpos(b, charOffset).value;
            && found.offset == charOffset - TotalLength(Live(b)[..p.index])
            && found.offset < b.entry[found.slot].Size()
  {
    FindDesignatesLive(b, charOffset);
    LocateSpec(Live(b), charOffset);
  }

  /**
   * A resolved position names a filled slot and an offset inside its
   * buffer, and the byte there is byte `charOffset` of the live commands
   * laid end to end.
   */
  lemma FindResolvesByte(b: CircularBuffer, charOffset: nat)
    requires Valid(b)
    ensures var r := FindEntryOffsetForFpos(b, charOffset);
            r.Some? ==>
              && r.value.slot < N
              && b.entry[r.value.slot].Buf?
              && r.value.offset < |b.entry[r.value.slot].data|
              && charOffset < |Concat(Live(b))|
              && Concat(Live(b))[charOffset] == b.entry[r.value.slot].data[r.value.offset]
  {
    if charOffset < TotalLength(Live(b)) {
      FindDesignatesLive(b, charOffset);
      LocateByte(Live(b), charOffset);
    }
  }

  /**
   * add_entry refines a bounded queue: on a valid ring, adding a non-empty
   * buffer appends it to the live commands and drops the oldest exactly when
   * N were live. The replaced buffer is that oldest command, and its slot now
   * holds the new entry, so the ring keeps no reference to what the caller
   * frees.
   */
  lemma AddEntryRefines(b: CircularBuffer, e: BufferEntry)
    requires Valid(b) && e.Buf? && |e.data| > 0
    ensures var r := AddEntry(b, e);
            && Valid(r.buffer)
            && Live(r.buffer) == Push(Live(b), e.data, N)
            && (r.replaced != Null <==> |Live(b)| == N)
            && (|Live(b)| == N ==> r.replaced == Buf(Live(b)[0]) && r.buffer.entry[b.outOffs] == e)
  {
    AddEntryKeepsValid(b, e);
    if b.full {
      AddEntryRotates(b, e);
      LiveAt(b, 0);
      assert b.outOffs % N == b.outOffs;
    } else {
      AddEntryAppends(b, e);
    }
  }

  lemma AddEntryKeepsValid(b: CircularBuffer, e: BufferEntry)
    requires Valid(b) && e.Buf? && |e.data| > 0
    ensures Valid(AddEntry(b, e).buffer)
  {
    ModN(b.inOffs + 1);
    ModN(b.outOffs + 1);
  }

  /** Overwriting a slot overwrites its contents. */
  lemma ContentsUpdate(es: seq<BufferEntry>, i: nat, e: BufferEntry)
    requires i < |es|
    ensures SlotContents(es[i := e]) == SlotContents(es)[i := e.Contents()]
  {
  }

  lemma AddEntryAppends(b: CircularBuffer, e: BufferEntry)
    requires Valid(b) && !b.full
    ensures Live(AddEntry(b, e).buffer) == Live(b) + [e.Contents()]
  {
    var b' := AddEntry(b, e).buffer;
    var cs := SlotContents(b.entry);
    LiveIsRotationPrefix(b);
    LiveIsRotationPrefix(b');
    ModN(b.inOffs + 1);
    assert Count(b') == b.inOffs + 1 by {
      if b'.full {
        assert b'.inOffs == 0;
      } else {
        assert b'.inOffs == b.inOffs + 1;
      }
    }
    RotationOfUnfilled(b);
    RotationOfUnfilled(b');
    ContentsUpdate(b.entry, b.inOffs, e);
    assert cs[b.inOffs := e.Contents()][..b.inOffs + 1] == cs[..b.inOffs] + [e.Contents()];
  }

  lemma AddEntryRotates(b: CircularBuffer, e: BufferEntry)
    requires Valid(b) && b.full
    ensures Live(AddEntry(b, e).buffer) == Live(b)[1..] + [e.Contents()]
  {
    var b' := AddEntry(b, e).buffer;
    ContentsUpdate(b.entry, b.outOffs, e);
    LiveIsRotationPrefix(b);
    LiveIsRotationPrefix(b');
    ModN(b.outOffs + 1);
    RotateOverwrite(SlotContents(b.entry), b.outOffs, e.Contents());
  }

  /** Overwriting the first element of a rotation and starting one further
      on moves that element from the front to the back as its new value. */
  lemma RotateOverwrite<T>(cs: seq<T>, o: nat, x: T)
    requires o < |cs|
    ensures var o' := if o + 1 < |cs| then o + 1 else 0;
            cs[o := x][o'..] + cs[o := x][..o'] == (cs[o..] + cs[..o])[1..] + [x]
  {
    var cs' := cs[o := x];
    assert (cs[o..] + cs[..o])[1..] == cs[o + 1..] + cs[..o];
    if o + 1 < |cs| {
      assert cs'[o + 1..] == cs[o + 1..];
      assert cs'[..o + 1] == cs[..o] + [x];
    } else {
      assert cs[o + 1..] == [];
      assert cs' == cs[..o] + [x];
    }
  }

  /** A run of slots holds as many bytes as the sizes add up to. */
  lemma {:induction false} SumSizesIsLength(es: seq<BufferEntry>)
    ensures SumSizes(es) == TotalLength(SlotContents(es))
  {
    if |es| > 0 {
      assert SlotContents(es)[1..] == SlotContents(es[1..]);
      SumSizesIsLength(es[1..]);
    }
  }

  /**
   * The sum of the sizes of all N slots, which the driver computes in
   * physical order, is the length of the live commands laid end to end.
   */
  lemma TotalSizeIsLiveLength(b: CircularBuffer)
    requires Valid(b)
    ensures SumSizes(b.entry) == TotalLength(Live(b))
  {
    var cs := SlotContents(b.entry);
    var o := b.outOffs;
    SumSizesIsLength(b.entry);
    RotationPadsLive(b);
    TotalLengthEmpties(Rotation(b)[Count(b)..]);
    TotalLengthAppend(Live(b), Rotation(b)[Count(b)..]);
    TakeDrop(cs, o);
    TotalLengthAppend(cs[..o], cs[o..]);
    TotalLengthAppend(cs[o..], cs[..o]);
  }
}

=== FILE: aesd_clients.dfy ===
/**
 * What a user of the device observes over several calls: a read returns the
 * stream's bytes from one command, a reader that loops until read returns 0
 * gets the whole stream, a writer that resubmits what a short write left
 * over stores exactly the complete commands of its bytes, and a seek to a
 * command through the corrected ioctl places the next read at that command.
 * The ioctl as written is guaranteed to agree only before the first
 * eviction, and can place the read elsewhere after it; see AesdFindings.
 */
module AesdClients {
  import opened CommandLog
  import opened AesdCircularBuffer
  import opened AesdChar

  /** A read below the end returns the stream's bytes at the file position. */
  lemma ReadFollowsStream(d: AesdDev, fpos: nat, count: nat)
    requires Valid(d.buffer) && !d.locked && fpos < TotalLength(Live(d.buffer))
    ensures var r := Read(d, fpos, count);
            fpos + r.ret <= |Stream(d)| && r.data == Stream(d)[fpos..fpos + r.ret]
  {
    ReadAtIsStream(Live(d.buffer), fpos, count);
  }

  /**
   * A read never crosses a command boundary: it copies from the one live
   * command holding the position, as many bytes as `count` allows before
   * that command ends.
   */
  lemma ReadStaysInCommand(d: AesdDev, fpos: nat, count: nat)
    requires Valid(d.buffer) && !d.locked && fpos < TotalLength(Live(d.buffer))
    ensures Locate(Live(d.buffer), fpos).Some?
    ensures var p := Locate(Live(d.buffer), fpos).value;
            var cmd := Live(d.buffer)[p.index];
            var n := Min(count, |cmd| - p.offset);
            && p.offset + n <= |cmd|
            && Read(d, fpos, count) == ReadResult(fpos + n, n, cmd[p.offset..p.offset + n])
  {
    LocateFinds(Live(d.buffer), fpos);
    ReadAtLocated(Live(d.buffer), fpos, count, Locate(Live(d.buffer), fpos).value);
  }

  /**
   * A reader that starts at position 0 and calls read with a positive count
   * until it returns 0 receives the whole stream and ends at its length.
   */
  method ReadToEnd(d: AesdDev, count: nat) returns (out: seq<byte>, fpos: nat)
    requires Valid(d.buffer) && !d.locked && count > 0
    ensures out == Stream(d) && fpos == |Stream(d)|
  {
    TotalLengthIsConcatLength(Live(d.buffer));
    out, fpos := [], 0;
    var done := false;
    while !done
      invariant fpos <= |Stream(d)| && out == Stream(d)[..fpos]
      invariant done ==> fpos == |Stream(d)|
      decreases |Stream(d)| - fpos, if done then 0 else 1
    {
      var r := Read(d, fpos, count);
      if r.ret == 0 {
        done := true;
      } else {
        ReadFollowsStream(d, fpos, count);
        TakeSlice(Stream(d), fpos, r.fpos);
        out, fpos := out + r.data, r.fpos;
      }
    }
  }

  /** The commands completed so far and the bytes staged after them. */
  datatype Assembly = Assembly(commands: seq<seq<byte>>, staged: seq<byte>)

  /**
   * Reference assembly of a byte stream into commands, one byte at a time:
   * a newline completes the staged bytes as a command, any other byte is
   * staged.
   */
  function Assemble(staged: seq<byte>, s: seq<byte>): Assembly
    decreases |s|
  {
    if |s| == 0 then Assembly([], staged)
    else if s[0] == NEWLINE then
      var rest := Assemble([], s[1..]);
      Assembly([staged + [NEWLINE]] + rest.commands, rest.staged)
    else Assemble(staged + [s[0]], s[1..])
  }

  /** Every assembled piece is one complete command and the staged tail has no newline. */
  lemma {:induction false} AssembleYieldsCommands(staged: seq<byte>, s: seq<byte>)
    requires NEWLINE !in staged
    ensures forall k | 0 <= k < |Assemble(staged, s).commands| :: IsCommand(Assemble(staged, s).commands[k])
    ensures NEWLINE !in Assemble(staged, s).staged
    decreases |s|
  {
    if |s| > 0 {
      if s[0] == NEWLINE {
        AssembleYieldsCommands([], s[1..]);
        var c := staged + [NEWLINE];
        assert c[..|c| - 1] == staged;
      } else {
        AssembleYieldsCommands(staged + [s[0]], s[1..]);
      }
    }
  }

  /** Assembly loses and adds no byte: the commands and the staged tail, laid
      end to end, are the staged bytes followed by the input. */
  lemma {:induction false} AssembleLosesNothing(staged: seq<byte>, s: seq<byte>)
    ensures Concat(Assemble(staged, s).commands) + Assemble(staged, s).staged == staged + s
    decreases |s|
  {
    if |s| == 0 {
      assert Concat([]) + staged == staged + s;
    } else if s[0] == NEWLINE {
      AssembleLosesNothing([], s[1..]);
      CompleteLosesNothing(staged, s);
    } else {
      AssembleLosesNothing(staged + [s[0]], s[1..]);
      StageLosesNothing(staged, s);
    }
  }

  /** The newline step of AssembleLosesNothing. */
  lemma CompleteLosesNothing(staged: seq<byte>, s: seq<byte>)
    requires |s| > 0 && s[0] == NEWLINE
    requires var rest := Assemble([], s[1..]); Concat(rest.commands) + rest.staged == [] + s[1..]
    ensures Concat(Assemble(staged, s).commands) + Assemble(staged, s).staged == staged + s
  {
    var rest := Assemble([], s[1..]);
    assert ([staged + [NEWLINE]] + rest.commands)[1..] == rest.commands;
    AppendAssoc(staged + [NEWLINE], Concat(rest.commands), rest.staged);
    AppendAssoc(staged, [NEWLINE], s[1..]);
    assert s == [NEWLINE] + s[1..];
  }

  /** The staging step of AssembleLosesNothing. */
  lemma StageLosesNothing(staged: seq<byte>, s: seq<byte>)
    requires |s| > 0 && s[0] != NEWLINE
    requires var a := Assemble(staged + [s[0]], s[1..]); Concat(a.commands) + a.staged == (staged + [s[0]]) + s[1..]
    ensures Concat(Assemble(staged, s).commands) + Assemble(staged, s).staged == staged + s
  {
    AppendAssoc(staged, [s[0]], s[1..]);
    assert s == [s[0]] + s[1..];
  }

  /** A chunk whose first newline is at `p` completes the staged bytes with
      its bytes through `p`, and assembly starts afresh after it. */
  lemma {:induction false} AssembleThroughNewline(staged: seq<byte>, buf: seq<byte>, p: nat)
    requires p < |buf| && buf[p] == NEWLINE && NEWLINE !in buf[..p]
    ensures var rest := Assemble([], buf[p + 1..]);
            Assemble(staged, buf) == Assembly([staged + buf[..p + 1]] + rest.commands, rest.staged)
    decreases p
  {
    if p == 0 {
      assert buf[..1] == [NEWLINE];
    } else {
      assert buf[..p][0] == buf[0];
      assert buf[1..][..p - 1] == buf[..p][1..];
      AssembleThroughNewline(staged + [buf[0]], buf[1..], p - 1);
      assert (staged + [buf[0]]) + buf[1..][..p] == staged + buf[..p + 1];
      assert buf[1..][p..] == buf[p + 1..];
    }
  }

  /** A chunk without a newline is staged whole. */
  lemma {:induction false} AssembleNoNewline(staged: seq<byte>, buf: seq<byte>)
    requires NEWLINE !in buf
    ensures Assemble(staged, buf) == Assembly([], staged + buf)
    decreases |buf|
  {
    if |buf| == 0 {
      assert staged + buf == staged;
    } else {
      assert buf[0] in buf;
      AssembleNoNewline(staged + [buf[0]], buf[1..]);
      AppendAssoc(staged, [buf[0]], buf[1..]);
      DropOne(buf, 0);
      DropZero(buf);
    }
  }

  /**
   * One write of a non-empty chunk consumes at least one byte, and the
   * commands the ring will still receive and the tail that will stay staged
   * are what they were.
   */
  lemma WriteStep(d: AesdDev, fpos: nat, buf: seq<byte>)
    requires Consistent(d) && !d.locked && |buf| > 0
    ensures var r := Write(d, fpos, buf);
            var before := Assemble(d.workingEntry.Contents(), buf);
            var after := Assemble(r.dev.workingEntry.Contents(), buf[r.ret..]);
            && 0 < r.ret <= |buf|
            && PushAll(Live(r.dev.buffer), after.commands, N) == PushAll(Live(d.buffer), before.commands, N)
            && after.staged == before.staged
  {
    var r := Write(d, fpos, buf);
    var w := d.workingEntry.Contents();
    if NEWLINE in buf {
      var p := r.ret - 1;
      AssembleThroughNewline(w, buf, p);
      var rest := Assemble([], buf[p + 1..]);
      assert ([w + buf[..p + 1]] + rest.commands)[1..] == rest.commands;
    } else {
      AssembleNoNewline(w, buf);
    }
  }

  /**
   * A writer that resubmits whatever a short write left over, until the
   * whole chunk is taken, loses no bytes: the ring receives exactly the
   * complete commands of the staged bytes followed by the chunk, and the
   * bytes after the last newline stay staged.
   */
  method WriteFully(d: AesdDev, fpos: nat, buf: seq<byte>) returns (r: Step)
    requires Consistent(d) && !d.locked
    ensures Consistent(r.dev) && !r.dev.locked
    ensures r.fpos == fpos + |buf| && r.ret == |buf|
    ensures Live(r.dev.buffer) == PushAll(Live(d.buffer), Assemble(d.workingEntry.Contents(), buf).commands, N)
    ensures r.dev.workingEntry.Contents() == Assemble(d.workingEntry.Contents(), buf).staged
    ensures Live(d.buffer) == [] ==>
              Live(r.dev.buffer) == LastN(Assemble(d.workingEntry.Contents(), buf).commands, N)
  {
    var dev, pos, rest, total := d, fpos, buf, 0;
    while |rest| > 0
      invariant Consistent(dev) && !dev.locked
      invariant |rest| <= |buf| && pos == fpos + (|buf| - |rest|) && total == |buf| - |rest|
      invariant PushAll(Live(dev.buffer), Assemble(dev.workingEntry.Contents(), rest).commands, N)
                == PushAll(Live(d.buffer), Assemble(d.workingEntry.Contents(), buf).commands, N)
      invariant Assemble(dev.workingEntry.Contents(), rest).staged == Assemble(d.workingEntry.Contents(), buf).staged
      decreases |rest|
    {
      var step := Write(dev, pos, rest);
      WriteStep(dev, pos, rest);
      dev, pos, rest, total := step.dev, step.fpos, rest[step.ret..], total + step.ret;
    }
    EmptyKeepsLastCommands(Assemble(d.workingEntry.Contents(), buf).commands);
    r := Step(dev, pos, total);
  }

  /** From an empty ring, the ring keeps the last N complete commands pushed. */
  lemma EmptyKeepsLastCommands(cs: seq<seq<byte>>)
    ensures PushAll([], cs, N) == LastN(cs, N)
  {
    PushAllKeepsLast([], cs, N);
    assert [] + cs == cs;
  }

  /** Writing "ab" and then "cd\n" stores the single command "abcd\n". */
  lemma PartialWritesMakeOneCommand()
    ensures var ab: seq<byte> := [97, 98];
            var cd: seq<byte> := [99, 100, 10];
            var s1 := Write(Fresh(), 0, ab);
            var s2 := Write(s1.dev, s1.fpos, cd);
            && s1.ret == 2 && s2.ret == 3 && s2.fpos == 5
            && Live(s2.dev.buffer) == [[97, 98, 99, 100, 10]]
  {
    var ab: seq<byte> := [97, 98];
    var cd: seq<byte> := [99, 100, 10];
    var s1 := Write(Fresh(), 0, ab);
    assert s1.dev.workingEntry.Contents() == ab;
    var s2 := Write(s1.dev, s1.fpos, cd);
    assert cd[..2] == [99, 100];
    assert s2.ret == 3;
    assert ab + cd[..3] == [97, 98, 99, 100, 10];
  }

  /**
   * Through the corrected ioctl, a seek to byte `off` of live command `cmd`
   * succeeds and sets the position to the start of that command in the
   * stream plus `off`.
   */
  lemma SeekLands(d: AesdDev, fpos: nat, cmd: nat, off: nat)
    requires Valid(d.buffer) && !d.locked
    requires cmd < |Live(d.buffer)| && off <= |Live(d.buffer)[cmd]|
    ensures var s := IoctlCorrected(d, fpos, SeekTo(cmd, off));
            s.ret == 0 && s.dev == d && s.fpos == TotalLength(Live(d.buffer)[..cmd]) + off
  {
  }

  /**
   * After a seek through the corrected ioctl to byte `off` of live command
   * `cmd`, below its length, a read returns bytes of that command from `off` on.
   */
  lemma SeekThenRead(d: AesdDev, fpos: nat, cmd: nat, off: nat, count: nat)
    requires Valid(d.buffer) && !d.locked
    requires cmd < |Live(d.buffer)| && off < |Live(d.buffer)[cmd]|
    ensures var s := IoctlCorrected(d, fpos, SeekTo(cmd, off));
            var r := Read(s.dev, s.fpos, count);
            && s.ret == 0
            && r.data == Live(d.buffer)[cmd][off..off + Min(count, |Live(d.buffer)[cmd]| - off)]
  {
    var s := IoctlCorrected(d, fpos, SeekTo(cmd, off));
    SeekLands(d, fpos, cmd, off);
    ReadAtCommand(s.dev, s.fpos, cmd, off, count);
  }

  /** A read at byte `off` of live command `cmd` returns that command's bytes from `off` on. */
  lemma ReadAtCommand(d: AesdDev, fpos: nat, cmd: nat, off: nat, count: nat)
    requires Valid(d.buffer) && !d.locked
    requires cmd < |Live(d.buffer)| && off < |Live(d.buffer)[cmd]|
    requires fpos == TotalLength(Live(d.buffer)[..cmd]) + off
    ensures Read(d, fpos, count).data == Live(d.buffer)[cmd][off..off + Min(count, |Live(d.buffer)[cmd]| - off)]
  {
    ReadAtCommandStart(Live(d.buffer), cmd, off, fpos, count);
  }

  /**
   * A seek through the corrected ioctl to the length of live command `cmd`
   * succeeds, and the next read returns the start of command `cmd + 1`, or
   * nothing when `cmd` is the newest.
   */
  lemma SeekToCommandEnd(d: AesdDev, fpos: nat, cmd: nat, count: nat)
    requires Valid(d.buffer) && !d.locked && cmd < |Live(d.buffer)|
    ensures var s := IoctlCorrected(d, fpos, SeekTo(cmd, |Live(d.buffer)[cmd]|));
            var r := Read(s.dev, s.fpos, count);
            && s.ret == 0
            && (cmd + 1 < |Live(d.buffer)| ==>
                  r.data == Live(d.buffer)[cmd + 1][..Min(count, |Live(d.buffer)[cmd + 1]|)])
            && (cmd + 1 == |Live(d.buffer)| ==> r == ReadResult(s.fpos, 0, []))
  {
    var s := IoctlCorrected(d, fpos, SeekTo(cmd, |Live(d.buffer)[cmd]|));
    SeekLands(d, fpos, cmd, |Live(d.buffer)[cmd]|);
    ReadAtCommandEnd(d, s.fpos, cmd, count);
  }

  /**
   * A read at the end of live command `cmd` returns the start of command
   * `cmd + 1`, or nothing with the position unchanged when `cmd` is the newest.
   */
  lemma ReadAtCommandEnd(d: AesdDev, fpos: nat, cmd: nat, count: nat)
    requires Valid(d.buffer) && !d.locked && cmd < |Live(d.buffer)|
    requires fpos == TotalLength(Live(d.buffer)[..cmd]) + |Live(d.buffer)[cmd]|
    ensures cmd + 1 < |Live(d.buffer)| ==>
              Read(d, fpos, count).data == Live(d.buffer)[cmd + 1][..Min(count, |Live(d.buffer)[cmd + 1]|)]
    ensures cmd + 1 == |Live(d.buffer)| ==> Read(d, fpos, count) == ReadResult(fpos, 0, [])
  {
    var cs := Live(d.buffer);
    TotalLengthSnoc(cs, cmd);
    if cmd + 1 < |cs| {
      LiveAt(d.buffer, cmd + 1);
      ReadAtCommandStart(cs, cmd + 1, 0, fpos, count);
    } else {
      assert cs[..cmd + 1] == cs;
    }
  }
}

=== FILE: aesd_findings.dfy ===
/**
 * Three defects of aesd_adjust_file_offset, each shown on a concrete device
 * state for the function as written (`AdjustFileOffsetAsWritten`, reached
 * through `IoctlAsWritten`) against the corrected `AdjustFileOffset` that
 * `IoctlCorrected` uses, and the one regime in which the two agree.
 */
module AesdFindings {
  import opened CommandLog
  import opened AesdCircularBuffer
  import opened AesdChar

  const X: seq<byte> := [120, 10]        // "x\n"
  const BBB: seq<byte> := [98, 98, 98, 10] // "bbb\n"
  const A: seq<byte> := [97, 10]          // "a\n"
  const Z: seq<byte> := [122, 10]         // "z\n"

  /**
   * A full ring after eleven commands: "z\n", "bbb\n", eight times "a\n",
   * then "x\n", which evicted "z\n" from slot 0. Both indices are 1, so the
   * oldest live command, "bbb\n", sits in slot 1 and "x\n" is the newest.
   */
  function Evicted(): (d: AesdDev)
    ensures Consistent(d) && !d.locked && d.buffer.outOffs == 1
  {
    var b := CircularBuffer([Buf(X), Buf(BBB), Buf(A), Buf(A), Buf(A), Buf(A), Buf(A), Buf(A), Buf(A), Buf(A)], 1, 1, true);
    assert forall i | 0 <= i < N :: b.entry[i].Buf? && IsCommand(b.entry[i].data) by {
      assert X[..1] == [120] && BBB[..3] == [98, 98, 98] && A[..1] == [97];
    }
    AesdDev(b, Null, false)
  }

  /**
   * `Evicted()` is reachable: eleven adds to the zeroed ring, "z\n", "bbb\n",
   * eight times "a\n" and "x\n", leave exactly its ring.
   */
  lemma EvictedIsReachable()
    ensures AddAll(Init(), Ten() + [Buf(X)]) == Evicted().buffer
  {
    assert Init().entry == Filling([]).entry;
    AddAllFilling([], Ten(), [Buf(X)]);
    assert [] + Ten() == Ten();
    AddTheEleventh();
  }

  /**
   * Writing "x\n" to the device whose ring has taken "z\n", "bbb\n" and
   * eight times "a\n", with nothing staged, returns 2 and leaves `Evicted()`:
   * the command lands in slot `in_offs` 0 and evicts "z\n".
   */
  lemma WriteEvicts()
    ensures Write(AesdDev(Filling(Ten()), Null, false), 0, X) == Step(Evicted(), 2, 2)
  {
    var d := AesdDev(Filling(Ten()), Null, false);
    TenConsistent();
    var r := Write(d, 0, X);
    assert X[0] != NEWLINE && X[1] == NEWLINE;
    assert r.ret == 2;
    assert d.workingEntry.Contents() + X[..2] == X;
    AddTheEleventh();
  }

  /** The first ten commands of `Evicted()`'s history, oldest first. */
  function Ten(): (es: seq<BufferEntry>)
    ensures |es| == N
  {
    [Buf(Z), Buf(BBB)] + seq(8, _ => Buf(A))
  }

  /** The ring holding the first ten commands, with nothing staged, is consistent. */
  lemma TenConsistent()
    ensures Consistent(AesdDev(Filling(Ten()), Null, false))
  {
    var b := Filling(Ten());
    assert b.entry == Ten();
    assert forall i | 0 <= i < N :: b.entry[i].Buf? && IsCommand(b.entry[i].data) by {
      assert Z[..1] == [122] && BBB[..3] == [98, 98, 98] && A[..1] == [97];
    }
  }

  /** Adding "x\n" to the ring holding the first ten commands gives `Evicted()`'s ring. */
  lemma AddTheEleventh()
    ensures AddEntry(Filling(Ten()), Buf(X)).buffer == Evicted().buffer
  {
    var b10 := Filling(Ten());
    assert b10.entry == Ten();
    assert AddEntry(b10, Buf(X)).buffer.entry == Evicted().buffer.entry;
  }

  /** The ring after adding the entries `es` in order. */
  function AddAll(b: CircularBuffer, es: seq<BufferEntry>): CircularBuffer
    requires WellFormed(b)
    decreases |es|
  {
    if es == [] then b else AddAll(AddEntry(b, es[0]).buffer, es[1..])
  }

  /** Adding entries to a ring that is still filling, while room remains, fills it further. */
  lemma {:induction false} AddAllFilling(es: seq<BufferEntry>, more: seq<BufferEntry>, tail: seq<BufferEntry>)
    requires |es| + |more| <= N
    ensures AddAll(Filling(es), more + tail) == AddAll(Filling(es + more), tail)
    decreases |more|
  {
    if more == [] {
      assert more + tail == tail && es + more == es;
    } else {
      AddToFilling(es, more[0]);
      assert (more + tail)[1..] == more[1..] + tail;
      AddAllFilling(es + [more[0]], more[1..], tail);
      assert es + [more[0]] + more[1..] == es + more;
    }
  }

  /** A ring that has taken the entries `es` in order from the zeroed ring, without eviction. */
  function Filling(es: seq<BufferEntry>): CircularBuffer
    requires |es| <= N
  {
    CircularBuffer(es + seq(N - |es|, _ => Null), |es| % N, 0, |es| == N)
  }

  /** Adding to a ring that is still filling appends to the entries it has taken. */
  lemma AddToFilling(es: seq<BufferEntry>, e: BufferEntry)
    requires |es| < N
    ensures AddEntry(Filling(es), e).buffer == Filling(es + [e])
  {
    var r := AddEntry(Filling(es), e).buffer;
    assert r.entry == (es + [e]) + seq(N - |es| - 1, _ => Null);
  }

  /** The range test lets `cmd == N` through to an access one past the slot array. */
  lemma RangeCheckAdmitsCapacity()
    ensures AdjustFileOffsetAsWritten(Fresh(), 0, N, 0) == OutOfBoundsAccess
    ensures AdjustFileOffset(Fresh(), 0, N, 0) == Step(Fresh(), 0, -EINVAL)
    ensures IoctlAsWritten(Fresh(), 0, SeekTo(N, 0)) == OutOfBoundsAccess
  {
  }

  /**
   * Asking for an empty slot, or for an offset past the end of a filled one,
   * returns -EINVAL with the mutex still held, after which every read, write
   * and relative seek fails with -ERESTARTSYS. The corrected function leaves
   * the device as it found it.
   */
  lemma MutexLeftHeld()
    ensures var w := AdjustFileOffsetAsWritten(Fresh(), 0, 0, 0);
            && w == Returned(Step(Fresh().(locked := true), 0, -EINVAL))
            && Read(w.step.dev, 0, 1).ret == -ERESTARTSYS
            && Write(w.step.dev, 0, A).ret == -ERESTARTSYS
            && Llseek(w.step.dev, 0, 0, SEEK_CUR).ret == -ERESTARTSYS
    ensures var w := AdjustFileOffsetAsWritten(Evicted(), 0, 0, 5);
            w == Returned(Step(Evicted().(locked := true), 0, -EINVAL))
    ensures AdjustFileOffset(Fresh(), 0, 0, 0) == Step(Fresh(), 0, -EINVAL)
    ensures AdjustFileOffset(Evicted(), 0, 0, 5) == Step(Evicted(), 0, -EINVAL)
    ensures IoctlAsWritten(Fresh(), 0, SeekTo(0, 0)).step.dev.locked
    ensures !IoctlCorrected(Fresh(), 0, SeekTo(0, 0)).dev.locked
  {
    var d := Evicted();
    LiveAt(d.buffer, 0);
  }

  /** After any seek request on a free device, the device is free again. */
  lemma SeekReleasesMutex(d: AesdDev, fpos: nat, req: IoctlRequest, pos: nat, count: nat)
    requires Valid(d.buffer) && !d.locked
    ensures !IoctlCorrected(d, fpos, req).dev.locked
    ensures Read(IoctlCorrected(d, fpos, req).dev, pos, count).ret >= 0
  {
  }

  /**
   * Once a command has been evicted the physical index is not the command
   * index a reader sees: asking for command 1 at offset 0 of `Evicted()`
   * puts the position at byte 2, inside the oldest command "bbb\n", where a
   * read returns "b\n". Logical command 1 is "a\n", which starts at byte 4,
   * where the corrected function puts the position.
   */
  lemma PhysicalIndexMisplacesSeek()
    ensures AdjustFileOffsetAsWritten(Evicted(), 0, 1, 0) == Returned(Step(Evicted(), 2, 0))
    ensures Read(Evicted(), 2, 10).data == [98, 10]
    ensures AdjustFileOffset(Evicted(), 0, 1, 0) == Step(Evicted(), 4, 0)
    ensures Live(Evicted().buffer)[1] == A
    ensures Read(Evicted(), 4, 10).data == A
    ensures IoctlAsWritten(Evicted(), 0, SeekTo(1, 0)).step.fpos == 2
    ensures IoctlCorrected(Evicted(), 0, SeekTo(1, 0)).fpos == 4
  {
    EvictedOrder();
    PhysicalSeek();
    LogicalSeek();
    ReadInsideOldest(Evicted());
    ReadSecondCommand(Evicted());
  }

  /** The two oldest live commands of `Evicted()`. */
  lemma EvictedOrder()
    ensures |Live(Evicted().buffer)| == N
    ensures Live(Evicted().buffer)[0] == BBB && Live(Evicted().buffer)[1] == A
  {
    LiveAt(Evicted().buffer, 0);
    LiveAt(Evicted().buffer, 1);
  }

  lemma PhysicalSeek()
    ensures AdjustFileOffsetAsWritten(Evicted(), 0, 1, 0) == Returned(Step(Evicted(), 2, 0))
  {
    assert Evicted().buffer.entry[..1] == [Buf(X)];
  }

  lemma LogicalSeek()
    requires Live(Evicted().buffer)[0] == BBB && Live(Evicted().buffer)[1] == A
    ensures AdjustFileOffset(Evicted(), 0, 1, 0) == Step(Evicted(), 4, 0)
  {
    var cs := Live(Evicted().buffer);
    assert cs[..1] == [BBB];
  }

  /** On any device whose oldest command is "bbb\n", a read at byte 2 returns "b\n". */
  lemma ReadInsideOldest(d: AesdDev)
    requires Valid(d.buffer) && !d.locked
    requires |Live(d.buffer)| > 0 && Live(d.buffer)[0] == BBB
    ensures Read(d, 2, 10).data == [98, 10]
  {
    var cs := Live(d.buffer);
    assert cs[..0] == [];
    ReadAtCommandStart(cs, 0, 2, 2, 10);
  }

  /** On any device whose two oldest commands are "bbb\n" and "a\n", a read at byte 4 returns "a\n". */
  lemma ReadSecondCommand(d: AesdDev)
    requires Valid(d.buffer) && !d.locked
    requires |Live(d.buffer)| > 1 && Live(d.buffer)[0] == BBB && Live(d.buffer)[1] == A
    ensures Read(d, 4, 10).data == A
  {
    var cs := Live(d.buffer);
    assert cs[..1] == [BBB];
    ReadAtCommandStart(cs, 1, 0, 4, 10);
  }

  /**
   * Before the first eviction slot `k` holds live command `k`, and the sizes
   * of the slots below it add up to the start of that command.
   */
  lemma UnevictedPrefixSize(b: CircularBuffer, cmd: nat)
    requires Valid(b) && b.outOffs == 0 && cmd <= Count(b)
    ensures SumSizes(b.entry[..cmd]) == TotalLength(Live(b)[..cmd])
  {
    SumSizesIsLength(b.entry[..cmd]);
    assert SlotContents(b.entry[..cmd]) == SlotContents(b.entry)[..cmd];
    RotationOfUnfilled(b);
    LiveIsRotationPrefix(b);
    TakeTake(Rotation(b), cmd, Count(b));
  }

  /**
   * While `out_offs` is 0, that is before any command has been evicted, the
   * function as written and the corrected one agree for every index below N
   * on a free device: same return value and same position, and on success
   * the same device.
   */
  lemma AsWrittenAgreesBeforeEviction(d: AesdDev, fpos: nat, cmd: nat, cmdOffset: nat)
    requires Valid(d.buffer) && d.buffer.outOffs == 0 && !d.locked && cmd < N
    ensures var w := AdjustFileOffsetAsWritten(d, fpos, cmd, cmdOffset);
            var c := AdjustFileOffset(d, fpos, cmd, cmdOffset);
            && w.Returned?
            && w.step.ret == c.ret && w.step.fpos == c.fpos
            && (c.ret == 0 ==> w.step == c)
  {
    var b := d.buffer;
    assert b.entry[cmd].Buf? <==> cmd < Count(b);
    if cmd < Count(b) {
      LiveAt(b, cmd);
      assert (cmd + b.outOffs) % N == cmd;
      UnevictedPrefixSize(b, cmd);
    }
  }

  /**
   * The ioctl as written and the corrected one agree before the first
   * eviction on a free device, for every request whose index is below N.
   */
  lemma IoctlAsWrittenAgreesBeforeEviction(d: AesdDev, fpos: nat, req: IoctlRequest)
    requires Valid(d.buffer) && d.buffer.outOffs == 0 && !d.locked
    requires req.SeekTo? ==> req.writeCmd < N
    ensures var w := IoctlAsWritten(d, fpos, req);
            var c := IoctlCorrected(d, fpos, req);
            && w.Returned?
            && w.step.ret == c.ret && w.step.fpos == c.fpos
            && (c.ret == 0 ==> w.step == c)
  {
    if req.SeekTo? {
      AsWrittenAgreesBeforeEviction(d, fpos, req.writeCmd, req.writeCmdOffset);
    }
  }

  /**
   * Before the first eviction the ioctl as written puts the position at the
   * start of live command `cmd` plus `off`, as the corrected one does.
   */
  lemma AsWrittenSeekLandsBeforeEviction(d: AesdDev, fpos: nat, cmd: nat, off: nat)
    requires Valid(d.buffer) && d.buffer.outOffs == 0 && !d.locked
    requires cmd < |Live(d.buffer)| && off <= |Live(d.buffer)[cmd]|
    ensures IoctlAsWritten(d, fpos, SeekTo(cmd, off)) == Returned(Step(d, TotalLength(Live(d.buffer)[..cmd]) + off, 0))
  {
    AsWrittenAgreesBeforeEviction(d, fpos, cmd, off);
  }
}

=== FILE: command_log.dfy ===
/**
 * The abstract view of the driver's storage: a bounded queue of commands
 * (byte strings, oldest first) and the single byte stream a reader sees,
 * which is those commands laid end to end.
 */
module CommandLog {

  type byte = bv8

  /** The byte that terminates a command, '\n'. */
  const NEWLINE: byte := 10

  datatype Option<T> = None | Some(value: T)

  /** A position inside a sequence of commands: byte `offset` of command `index`. */
  datatype Position = Position(index: nat, offset: nat)

  /** Dropping the first of the elements from `i` on leaves those from `i + 1` on. */
  lemma DropOne<T>(s: seq<T>, i: nat)
    requires i < |s|
    ensures s[i..][0] == s[i] && s[i..][1..] == s[i + 1..]
  {
  }

  lemma DropZero<T>(s: seq<T>)
    ensures s[0..] == s
  {
  }

  lemma AppendAssoc<T>(a: seq<T>, b: seq<T>, c: seq<T>)
    ensures (a + b) + c == a + (b + c)
  {
  }

  lemma TakeDrop<T>(s: seq<T>, i: nat)
    requires i <= |s|
    ensures s[..i] + s[i..] == s
  {
  }

  /** A prefix extended by the slice after it is the longer prefix. */
  lemma TakeSlice<T>(s: seq<T>, i: nat, j: nat)
    requires i <= j <= |s|
    ensures s[..i] + s[i..j] == s[..j]
  {
  }

  /** A prefix extended by the next element. */
  lemma TakeSnoc<T>(s: seq<T>, k: nat)
    requires k < |s|
    ensures s[..k] + [s[k]] == s[..k + 1]
  {
  }

  /** A prefix of a prefix is a prefix of the whole. */
  lemma TakeTake<T>(s: seq<T>, i: nat, j: nat)
    requires i <= j <= |s|
    ensures s[..j][..i] == s[..i]
  {
  }

  /** A slice of a slice is a slice of the whole. */
  lemma SliceOfSlice<T>(s: seq<T>, a: nat, b: nat, i: nat, j: nat)
    requires a <= b <= |s| && i <= j <= b - a
    ensures s[a..b][i..j] == s[a + i..a + j]
  {
    forall k | 0 <= k < j - i
      ensures s[a..b][i..j][k] == s[a + i..a + j][k]
    {
    }
  }

  /** The commands laid end to end. */
  function Concat(cs: seq<seq<byte>>): seq<byte>
  {
    if |cs| == 0 then [] else cs[0] + Concat(cs[1..])
  }

  /** The number of bytes in the commands, counted command by command. */
  function TotalLength(cs: seq<seq<byte>>): nat
  {
    if |cs| == 0 then 0 else |cs[0]| + TotalLength(cs[1..])
  }

  lemma {:induction false} TotalLengthIsConcatLength(cs: seq<seq<byte>>)
    ensures TotalLength(cs) == |Concat(cs)|
  {
    if |cs| > 0 {
      TotalLengthIsConcatLength(cs[1..]);
    }
  }

  lemma {:induction false} ConcatAppend(a: seq<seq<byte>>, b: seq<seq<byte>>)
    ensures Concat(a + b) == Concat(a) + Concat(b)
  {
    if |a| == 0 {
      assert a + b == b;
    } else {
      assert (a + b)[1..] == a[1..] + b;
      ConcatAppend(a[1..], b);
      AppendAssoc(a[0], Concat(a[1..]), Concat(b));
    }
  }

  lemma TotalLengthAppend(a: seq<seq<byte>>, b: seq<seq<byte>>)
    ensures TotalLength(a + b) == TotalLength(a) + TotalLength(b)
  {
    ConcatAppend(a, b);
    TotalLengthIsConcatLength(a + b);
    TotalLengthIsConcatLength(a);
    TotalLengthIsConcatLength(b);
  }

  /** Commands that are all empty contribute no bytes. */
  lemma {:induction false} TotalLengthEmpties(cs: seq<seq<byte>>)
    requires forall i | 0 <= i < |cs| :: cs[i] == []
    ensures TotalLength(cs) == 0
  {
    if |cs| > 0 {
      assert cs[0] == [];
      TotalLengthEmpties(cs[1..]);
    }
  }

  /** Adding one command to the end adds its length. */
  lemma TotalLengthSnoc(cs: seq<seq<byte>>, k: nat)
    requires k < |cs|
    ensures TotalLength(cs[..k + 1]) == TotalLength(cs[..k]) + |cs[k]|
  {
    assert cs[..k + 1] == cs[..k] + [cs[k]];
    TotalLengthAppend(cs[..k], [cs[k]]);
    assert [cs[k]][1..] == [];
  }

  /** Command `k` occupies the bytes of the stream that start where the
      commands before it end. */
  lemma ConcatSlice(cs: seq<seq<byte>>, k: nat)
    requires k < |cs|
    ensures TotalLength(cs[..k]) + |cs[k]| <= |Concat(cs)|
    ensures Concat(cs)[TotalLength(cs[..k])..TotalLength(cs[..k]) + |cs[k]|] == cs[k]
  {
    TakeDrop(cs, k + 1);
    ConcatAppend(cs[..k + 1], cs[k + 1..]);
    assert cs[..k + 1] == cs[..k] + [cs[k]];
    ConcatAppend(cs[..k], [cs[k]]);
    assert Concat([cs[k]]) == cs[k] + Concat([]);
    TotalLengthIsConcatLength(cs[..k]);
  }

  /**
   * Reference resolver: the command holding byte `c` of the stream and the
   * offset of that byte inside it, or None past the end of the stream.
   * Empty commands are stepped over.
   */
  function Locate(cs: seq<seq<byte>>, c: nat): (r: Option<Position>)
    ensures r.Some? ==> r.value.index < |cs| && r.value.offset < |cs[r.value.index]|
    decreases |cs|
  {
    if |cs| == 0 then None
    else if c < |cs[0]| then Some(Position(0, c))
    else
      match Locate(cs[1..], c - |cs[0]|)
      case None => None
      case Some(p) => Some(Position(p.index + 1, p.offset))
  }

  /** Locate finds a position exactly below the total length of the stream. */
  lemma {:induction false} LocateFinds(cs: seq<seq<byte>>, c: nat)
    ensures Locate(cs, c).None? <==> c >= TotalLength(cs)
    decreases |cs|
  {
    if |cs| > 0 && c >= |cs[0]| {
      LocateFinds(cs[1..], c - |cs[0]|);
    }
  }

  /** A resolved position is its command's start in the stream plus its offset. */
  lemma {:induction false} LocateSpec(cs: seq<seq<byte>>, c: nat)
    requires Locate(cs, c).Some?
    ensures var p := Locate(cs, c).value;
            c == TotalLength(cs[..p.index]) + p.offset
    decreases |cs|
  {
    if c < |cs[0]| {
      assert cs[..0] == [];
    } else {
      LocateSpec(cs[1..], c - |cs[0]|);
      var q := Locate(cs[1..], c - |cs[0]|).value;
      PrefixCons(cs, q.index + 1);
    }
  }

  lemma PrefixCons(cs: seq<seq<byte>>, k: nat)
    requires 0 < k <= |cs|
    ensures TotalLength(cs[..k]) == |cs[0]| + TotalLength(cs[1..][..k - 1])
  {
    assert cs[..k][0] == cs[0] && cs[..k][1..] == cs[1..][..k - 1];
  }

  /** Unfolding Locate once past a command that does not hold the position. */
  lemma LocatePast(cs: seq<seq<byte>>, c: nat, p: Position)
    requires |cs| > 0
    requires Locate(cs[1..], c) == Some(p)
    ensures Locate(cs, |cs[0]| + c) == Some(Position(p.index + 1, p.offset))
  {
    assert |cs[0]| + c - |cs[0]| == c;
  }

  /** The stream position `offset` bytes into command `k` resolves to exactly that command and offset. */
  lemma {:induction false} LocateAt(cs: seq<seq<byte>>, k: nat, offset: nat)
    requires k < |cs| && offset < |cs[k]|
    ensures Locate(cs, TotalLength(cs[..k]) + offset) == Some(Position(k, offset))
    decreases k
  {
    if k == 0 {
      assert cs[..0] == [];
    } else {
      LocateAt(cs[1..], k - 1, offset);
      LocateAtNext(cs, k, offset);
    }
  }

  lemma LocateAtNext(cs: seq<seq<byte>>, k: nat, offset: nat)
    requires 0 < k < |cs|
    requires Locate(cs[1..], TotalLength(cs[1..][..k - 1]) + offset) == Some(Position(k - 1, offset))
    ensures Locate(cs, TotalLength(cs[..k]) + offset) == Some(Position(k, offset))
  {
    PrefixCons(cs, k);
    LocatePast(cs, TotalLength(cs[1..][..k - 1]) + offset, Position(k - 1, offset));
  }

  /** The `n` bytes from a resolved position, when they stay inside its
      command, are the stream's bytes there. */
  lemma StreamSlice(cs: seq<seq<byte>>, c: nat, n: nat)
    requires Locate(cs, c).Some?
    requires Locate(cs, c).value.offset + n <= |cs[Locate(cs, c).value.index]|
    ensures c + n <= |Concat(cs)|
    ensures var p := Locate(cs, c).value;
            Concat(cs)[c..c + n] == cs[p.index][p.offset..p.offset + n]
  {
    var p := Locate(cs, c).value;
    LocateSpec(cs, c);
    ConcatSlice(cs, p.index);
    var start := TotalLength(cs[..p.index]);
    SliceOfSlice(Concat(cs), start, start + |cs[p.index]|, p.offset, p.offset + n);
  }

  /** A resolved position names the stream's byte there. */
  lemma LocateByte(cs: seq<seq<byte>>, c: nat)
    requires c < TotalLength(cs)
    ensures Locate(cs, c).Some? && c < |Concat(cs)|
    ensures var p := Locate(cs, c).value;
            Concat(cs)[c] == cs[p.index][p.offset]
  {
    LocateFinds(cs, c);
    StreamSlice(cs, c, 1);
    var p := Locate(cs, c).value;
    assert Concat(cs)[c..c + 1][0] == Concat(cs)[c];
    assert cs[p.index][p.offset..p.offset + 1][0] == cs[p.index][p.offset];
  }

  function Min(a: int, b: int): int
  {
    if a <= b then a else b
  }

  /**
   * Reference read: at most `count` bytes of the stream from position `c`,
   * taken from the one command that holds `c`; nothing past the end.
   */
  function ReadAt(cs: seq<seq<byte>>, c: nat, count: nat): (r: seq<byte>)
    ensures |r| <= count
    ensures c >= TotalLength(cs) ==> r == []
    ensures c < TotalLength(cs) && count > 0 ==> |r| > 0
    decreases |cs|
  {
    if |cs| == 0 then []
    else if c < |cs[0]| then cs[0][c..c + Min(count, |cs[0]| - c)]
    else ReadAt(cs[1..], c - |cs[0]|, count)
  }

  /** At a resolved position the reference read copies from the command
      Locate names, as many bytes as `count` allows before it ends. */
  lemma {:induction false} ReadAtLocated(cs: seq<seq<byte>>, c: nat, count: nat, p: Position)
    requires Locate(cs, c) == Some(p)
    ensures p.offset + Min(count, |cs[p.index]| - p.offset) <= |cs[p.index]|
    ensures ReadAt(cs, c, count) == cs[p.index][p.offset..p.offset + Min(count, |cs[p.index]| - p.offset)]
    decreases |cs|
  {
    if c >= |cs[0]| {
      var q := Locate(cs[1..], c - |cs[0]|).value;
      ReadAtLocated(cs[1..], c - |cs[0]|, count, q);
      assert cs[1..][q.index] == cs[p.index];
    }
  }

  /** Below the end of the stream the reference read copies from the
      command holding `c`, as many bytes as `count` allows before it ends. */
  lemma ReadAtInCommand(cs: seq<seq<byte>>, c: nat, count: nat)
    requires c < TotalLength(cs)
    ensures Locate(cs, c).Some?
    ensures var p := Locate(cs, c).value;
            var n := Min(count, |cs[p.index]| - p.offset);
            p.offset + n <= |cs[p.index]| && ReadAt(cs, c, count) == cs[p.index][p.offset..p.offset + n]
  {
    LocateFinds(cs, c);
    ReadAtLocated(cs, c, count, Locate(cs, c).value);
  }

  /** The reference read returns the stream's bytes from `c` on. */
  lemma ReadAtIsStream(cs: seq<seq<byte>>, c: nat, count: nat)
    requires c < TotalLength(cs)
    ensures c + |ReadAt(cs, c, count)| <= |Concat(cs)|
    ensures ReadAt(cs, c, count) == Concat(cs)[c..c + |ReadAt(cs, c, count)|]
  {
    ReadAtInCommand(cs, c, count);
    var p := Locate(cs, c).value;
    StreamSlice(cs, c, Min(count, |cs[p.index]| - p.offset));
  }

  /** A read at byte `offset` of command `k` returns that command's bytes from `offset` on. */
  lemma ReadAtCommandStart(cs: seq<seq<byte>>, k: nat, offset: nat, c: nat, count: nat)
    requires k < |cs| && offset < |cs[k]| && c == TotalLength(cs[..k]) + offset
    ensures ReadAt(cs, c, count) == cs[k][offset..offset + Min(count, |cs[k]| - offset)]
  {
    LocateAt(cs, k, offset);
    ReadAtLocated(cs, c, count, Position(k, offset));
  }

  /** Appending commands with no bytes does not move any position. */
  lemma {:induction false} LocatePadding(cs: seq<seq<byte>>, pad: seq<seq<byte>>, c: nat)
    requires forall i | 0 <= i < |pad| :: pad[i] == []
    ensures Locate(cs + pad, c) == Locate(cs, c)
    decreases |cs|
  {
    if |cs| == 0 {
      assert cs + pad == pad;
      TotalLengthEmpties(pad);
    } else {
      assert (cs + pad)[1..] == cs[1..] + pad;
      if c >= |cs[0]| {
        LocatePadding(cs[1..], pad, c - |cs[0]|);
      }
    }
  }

  /** The last `n` elements of `s` (all of `s` when it is shorter). */
  function LastN(s: seq<seq<byte>>, n: nat): (r: seq<seq<byte>>)
    ensures |r| == if |s| <= n then |s| else n
    ensures r == s[|s| - |r|..]
  {
    if |s| <= n then s else s[|s| - n..]
  }

  /**
   * Appending one command to a queue that holds at most `capacity`: when the
   * queue is already at capacity its oldest command is dropped.
   */
  function Push(q: seq<seq<byte>>, x: seq<byte>, capacity: nat): (r: seq<seq<byte>>)
    requires 0 < capacity && |q| <= capacity
    ensures r == LastN(q + [x], capacity)
  {
    if |q| < capacity then q + [x]
    else
      assert (q + [x])[1..] == q[1..] + [x];
      q[1..] + [x]
  }

  /** Appending several commands in order. */
  function PushAll(q: seq<seq<byte>>, xs: seq<seq<byte>>, capacity: nat): seq<seq<byte>>
    requires 0 < capacity && |q| <= capacity
    decreases |xs|
  {
    if |xs| == 0 then q else PushAll(Push(q, xs[0], capacity), xs[1..], capacity)
  }

  lemma LastNOfSuffix(s: seq<seq<byte>>, t: seq<seq<byte>>, u: seq<seq<byte>>, n: nat)
    requires |t| <= |s| && t == s[|s| - |t|..]
    requires |t| >= n || |t| == |s|
    ensures LastN(t + u, n) == LastN(s + u, n)
  {
    var p := s[..|s| - |t|];
    TakeDrop(s, |s| - |t|);
    AppendAssoc(p, t, u);
  }

  lemma PushThenLastN(q: seq<seq<byte>>, x: seq<byte>, rest: seq<seq<byte>>, capacity: nat)
    requires 0 < capacity && |q| <= capacity
    ensures LastN(Push(q, x, capacity) + rest, capacity) == LastN(q + ([x] + rest), capacity)
  {
    LastNOfSuffix(q + [x], Push(q, x, capacity), rest, capacity);
    AppendAssoc(q, [x], rest);
  }

  /** A bounded queue keeps exactly the last `capacity` commands appended. */
  lemma {:induction false} PushAllKeepsLast(q: seq<seq<byte>>, xs: seq<seq<byte>>, capacity: nat)
    requires 0 < capacity && |q| <= capacity
    ensures PushAll(q, xs, capacity) == LastN(q + xs, capacity)
    decreases |xs|
  {
    if |xs| == 0 {
      assert q + xs == q;
    } else {
      PushAllKeepsLast(Push(q, xs[0], capacity), xs[1..], capacity);
      PushThenLastN(q, xs[0], xs[1..], capacity);
      TakeDrop(xs, 1);
      assert xs[..1] == [xs[0]];
    }
  }
}
